=== FILE: README.md ===
# S2JSourceList core in Dafny

S2JSourceList is a sidebar "source list" component. It shows a forest of
`SourceItem` nodes: groups with children, and leaves. `SourceListService`
owns the forest and changes it by id. `SelectionManager` tracks which ids
are selected and keeps a most-recent-first history. The sidebar view filters
the forest by a search text and remembers which groups are shown expanded.

This project models those parts as pure functions over immutable values.

## Data model

- **Nodes.**
  - A node is `SourceItem.Node`. Its identifier is a `nat`; only equality on it matters.
  - A node's children field is `Nil` when the node has no child list, and `List(nodes)` when it has one. `List([])` is a present but empty list: `SourceItem.Group` with no children builds it, and so does the filter for a group that matches only by its title.
- **Stores.** `SourceListService.Store` is the service state.
  - It holds the root items.
  - It holds a log of the notifications the service publishes: items changed, item renamed, item deleted.
- **Selections.** `SelectionManager.Selection` is the selection state.
  - It holds the mode, the selected set, the history and the history bound.
  - It holds the log of published selection sets.
- **Reference definitions** (module `Forest`) that the contracts are stated against:
  - `Preorder`: the depth-first list of every node with its parent.
  - `Ids`: every identifier in the forest.
  - `UniqueIds`: no identifier appears twice.
  - `NoEmptyLists`: no children list is empty.
  - `EditedAt`: the forest differs from another at exactly one path, by one replacement, removal or append.

## Modules and files

- `wrappers.dfy`: `Option`.
- `source_item.dfy`: the node type.
- `forest.dfy`: the reference definitions.
- `source_list_service.dfy`: the service.
- `service_properties.dfy`: lemmas about the service.
- `sequences.dfy`: subsequences.
- `selection_manager.dfy`: the selection manager.
- `sidebar.dfy`: the view helpers.

## Model

| member | source | states |
|---|---|---|
| SourceItem.Init | Sources/S2JSourceList/Core/Models/SourceItem.swift:74-94 | the initialiser stores every argument in its field, with the defaults of the source |
| SourceItem.DefaultInit | Sources/S2JSourceList/Core/Models/SourceItem.swift:74-94 | a node built from an id and a title alone has no children, no badge or icon, is collapsed, read-only and selectable |
| SourceItem.HasChildrenMeaning | Sources/S2JSourceList/Core/Models/SourceItem.swift:100-111 | a node has children exactly when its children list exists and is not empty; a node is a group exactly when it has children |
| SourceItem.EqualityIsById | Sources/S2JSourceList/Core/Models/SourceItem.swift:121-123 | two nodes are the same item exactly when their ids agree, whatever the other fields; the relation is reflexive and symmetric |
| SourceItem.Group | Sources/S2JSourceList/Core/Models/SourceItem.swift:147-162 | a group is neither selectable nor editable and has no badge; it has children exactly when it was given some |
| SourceItem.Item | Sources/S2JSourceList/Core/Models/SourceItem.swift:173-189 | a leaf item has no children, is not a group, is selectable and collapsed |
| SourceListService.NewStore | Sources/S2JSourceList/Core/Services/SourceListService.swift:41-43 | a new service holds the given roots and has published nothing |
| SourceListService.FindItemIn | Sources/S2JSourceList/Core/Services/SourceListService.swift:69-80 | the search under a parent finds nothing exactly when the id occurs nowhere below it; a hit carries the requested id |
| SourceListService.FindItem | Sources/S2JSourceList/Core/Services/SourceListService.swift:50-60 | the lookup fails exactly when the id is absent from the whole forest; a hit carries the requested id |
| ServiceProperties.FindIsFirstInPreorder | Sources/S2JSourceList/Core/Services/SourceListService.swift:50-80 | the lookup returns the first entry of the depth-first listing whose id matches, together with its parent |
| ServiceProperties.FindItemExact | Sources/S2JSourceList/Core/Services/SourceListService.swift:50-60 | with unique ids, looking up the id of any node of the forest returns that node and its real parent |
| ServiceProperties.FindItemParent | Sources/S2JSourceList/Core/Services/SourceListService.swift:50-80 | a found node is a root with no parent, or a child of the parent returned with it |
| ServiceProperties.FindRoot | Sources/S2JSourceList/Core/Services/SourceListService.swift:50-60 | with unique ids, looking up a root's id returns that root with no parent |
| SourceListService.IndexOf | Sources/S2JSourceList/Core/Services/SourceListService.swift:87 | the root index returned is the first root carrying the id; no index means no root carries it |
| SourceListService.UpdateItemInChildren | Sources/S2JSourceList/Core/Services/SourceListService.swift:102-116 | the recursive update reports success exactly when the id occurs in the forest; on failure nothing changes; the roots keep their number and ids |
| SourceListService.UpdatedRoots | Sources/S2JSourceList/Core/Services/SourceListService.swift:86-93 | replacing the first root with the id, or else updating below, keeps the roots' number and ids and changes nothing when the id is absent |
| ServiceProperties.UpdateAtFirstRoot | Sources/S2JSourceList/Core/Services/SourceListService.swift:102-116 | when the first occurrence of the id is the i-th root, the recursive update replaces exactly that root |
| ServiceProperties.UpdatedRootsAgree | Sources/S2JSourceList/Core/Services/SourceListService.swift:86-116 | with unique ids, the root-first shortcut of the update gives the same forest as the recursive search alone |
| SourceListService.UpdateItem | Sources/S2JSourceList/Core/Services/SourceListService.swift:86-95 | the update always publishes the new roots; an absent id leaves the forest as it was; the number of roots is kept |
| ServiceProperties.UpdateThenFind | Sources/S2JSourceList/Core/Services/SourceListService.swift:102-116 | after the recursive update of a present id, looking up the id finds exactly the new value |
| ServiceProperties.UpdateInIdempotent | Sources/S2JSourceList/Core/Services/SourceListService.swift:102-116 | applying the same recursive update twice gives the forest and flag of applying it once |
| ServiceProperties.UpdateRestores | Sources/S2JSourceList/Core/Services/SourceListService.swift:102-116 | for a present id, updating with the value found before the update undoes it: the original forest comes back |
| ServiceProperties.UpdateSameIds | Sources/S2JSourceList/Core/Services/SourceListService.swift:102-116 | an update of a present id that keeps the node's children keeps the set of ids of the forest |
| ServiceProperties.UpdateSameUnique | Sources/S2JSourceList/Core/Services/SourceListService.swift:102-116 | with unique ids, an update that keeps the node's children keeps them unique |
| ServiceProperties.UpdateSameNoEmptyLists | Sources/S2JSourceList/Core/Services/SourceListService.swift:102-116 | from a forest without empty children lists, an update of a present id that keeps the node's children never creates one |
| ServiceProperties.UpdateEditsOnePath | Sources/S2JSourceList/Core/Services/SourceListService.swift:102-116 | the recursive update differs from the old forest by one replacement at one path, whose node carries the id |
| ServiceProperties.UpdateItemEditsOnePath | Sources/S2JSourceList/Core/Services/SourceListService.swift:86-95 | when the id is present, the update replaces exactly one node carrying it and leaves the rest of the forest alone |
| ServiceProperties.UpdateItemThenFind | Sources/S2JSourceList/Core/Services/SourceListService.swift:86-95 | with unique ids, after the update a lookup of the id returns the new value |
| ServiceProperties.UpdateItemIdempotent | Sources/S2JSourceList/Core/Services/SourceListService.swift:86-95 | updating twice with the same value leaves the forest of one update; only one more change notification is published |
| ServiceProperties.UpdateKeepsShape | Sources/S2JSourceList/Core/Services/SourceListService.swift:86-95 | with unique ids, an update that keeps the node's children keeps the id set, their uniqueness and no empty lists, and the new value is found afterwards |
| SourceListService.RenameItem | Sources/S2JSourceList/Core/Services/SourceListService.swift:123-128 | renaming an unknown id changes nothing and publishes nothing; otherwise it publishes a change and then the rename with the id and title |
| ServiceProperties.RenameWithDuplicateIds | Sources/S2JSourceList/Core/Services/SourceListService.swift:50-128 | when an id repeats, the rename's lookup finds the nested leaf but the update replaces the later root with the retitled leaf, dropping that root's subtree |
| ServiceProperties.RenameChangesOnlyTitle | Sources/S2JSourceList/Core/Services/SourceListService.swift:123-128 | with unique ids, after a rename the id is found as the same node retitled; ids stay the same and stay unique |
| ServiceProperties.RenameEditsOnePath | Sources/S2JSourceList/Core/Services/SourceListService.swift:123-128 | a rename of a present id replaces exactly one node carrying it, by that node retitled, and leaves the rest of the forest alone |
| SourceListService.DeleteItemFromChildren | Sources/S2JSourceList/Core/Services/SourceListService.swift:152-166 | the recursive delete reports success exactly when the id occurs in the forest; on failure nothing changes |
| SourceListService.DeletedRoots | Sources/S2JSourceList/Core/Services/SourceListService.swift:134-145 | deleting an absent id leaves the roots as they were |
| ServiceProperties.DeleteAtFirstRoot | Sources/S2JSourceList/Core/Services/SourceListService.swift:152-166 | when the first occurrence of the id is the i-th root, the recursive delete removes exactly that root |
| ServiceProperties.DeletedRootsAgree | Sources/S2JSourceList/Core/Services/SourceListService.swift:134-166 | with unique ids, the root-first shortcut of the delete gives the same forest as the recursive search alone |
| SourceListService.DeleteItem | Sources/S2JSourceList/Core/Services/SourceListService.swift:134-146 | the delete publishes a change and a deletion even for an unknown id; an unknown id leaves the forest alone; a root id removes that root and keeps the others in order |
| ServiceProperties.DeleteShrinksIds | Sources/S2JSourceList/Core/Services/SourceListService.swift:152-166 | deleting never adds an id |
| ServiceProperties.DeleteRemovesSubtree | Sources/S2JSourceList/Core/Services/SourceListService.swift:152-166 | with unique ids, the ids left are the old ids minus those of the deleted node's whole subtree |
| ServiceProperties.DeleteKeepsUnique | Sources/S2JSourceList/Core/Services/SourceListService.swift:152-166 | with unique ids, deleting keeps them unique |
| ServiceProperties.DeleteEditsOnePath | Sources/S2JSourceList/Core/Services/SourceListService.swift:152-166 | the recursive delete differs from the old forest by one removal at one path; a children list emptied by it becomes absent |
| ServiceProperties.DeleteKeepsNoEmptyLists | Sources/S2JSourceList/Core/Services/SourceListService.swift:152-166 | from a forest without empty children lists, deleting never creates one |
| ServiceProperties.DeleteItemRemoves | Sources/S2JSourceList/Core/Services/SourceListService.swift:134-146 | with unique ids, after the delete the id is not found, ids stay unique, exactly the subtree's ids are gone and no empty list appears |
| ServiceProperties.DeleteItemEditsOnePath | Sources/S2JSourceList/Core/Services/SourceListService.swift:134-146 | when the id is present, the delete removes exactly one node carrying it and leaves the rest of the forest alone |
| SourceListService.ToggleExpansion | Sources/S2JSourceList/Core/Services/SourceListService.swift:172-176 | an unknown id or a node without children changes nothing and publishes nothing; otherwise the update is published |
| ServiceProperties.ToggleFlips | Sources/S2JSourceList/Core/Services/SourceListService.swift:172-176 | with unique ids, toggling a node with children replaces exactly that node with its expansion flag flipped |
| ServiceProperties.ToggleTwiceRestores | Sources/S2JSourceList/Core/Services/SourceListService.swift:172-176 | with unique ids, toggling the same id twice gives back the original forest |
| SourceListService.ExpandItem | Sources/S2JSourceList/Core/Services/SourceListService.swift:182-186 | an unknown id, a node without children or a node already expanded leaves the state as it was; expanding a collapsed node with children publishes the new roots |
| ServiceProperties.ExpandSets | Sources/S2JSourceList/Core/Services/SourceListService.swift:182-186 | with unique ids, expanding a node with children leaves it found and expanded; a collapsed node is replaced at its one path with the ids kept, an expanded one leaves the state as it was |
| ServiceProperties.ExpandIdempotent | Sources/S2JSourceList/Core/Services/SourceListService.swift:182-186 | with unique ids, expanding twice is the same as expanding once, including the notifications |
| SourceListService.CollapseItem | Sources/S2JSourceList/Core/Services/SourceListService.swift:192-196 | an unknown id, a node without children or a node already collapsed leaves the state as it was; collapsing an expanded node with children publishes the new roots |
| ServiceProperties.CollapseClears | Sources/S2JSourceList/Core/Services/SourceListService.swift:192-196 | with unique ids, collapsing a node with children leaves it found and collapsed; an expanded node is replaced at its one path with the ids kept, a collapsed one leaves the state as it was |
| ServiceProperties.CollapseIdempotent | Sources/S2JSourceList/Core/Services/SourceListService.swift:192-196 | with unique ids, collapsing twice is the same as collapsing once, including the notifications |
| SourceListService.AddItemToParent | Sources/S2JSourceList/Core/Services/SourceListService.swift:219-235 | the recursive add reports success exactly when the parent id occurs in the forest; on failure nothing changes |
| SourceListService.AddItem | Sources/S2JSourceList/Core/Services/SourceListService.swift:203-210 | the add always publishes; no parent appends to the roots; an unknown parent silently drops the node |
| SourceListService.IdsAppend | Sources/S2JSourceList/Core/Services/SourceListService.swift:203-210 | the ids of two forests side by side are the union of their ids |
| ServiceProperties.AddEditsOnePath | Sources/S2JSourceList/Core/Services/SourceListService.swift:219-235 | the recursive add differs from the old forest by one append to the children of one node carrying the parent id |
| ServiceProperties.AddThenFind | Sources/S2JSourceList/Core/Services/SourceListService.swift:219-235 | a fresh node added under a present parent is found, with that parent, as the last of the parent's old children |
| ServiceProperties.AddIds | Sources/S2JSourceList/Core/Services/SourceListService.swift:219-235 | a successful add grows the ids by exactly the new subtree's ids; a failed one keeps them |
| ServiceProperties.AddKeepsUnique | Sources/S2JSourceList/Core/Services/SourceListService.swift:219-235 | with unique ids, adding a subtree whose ids are fresh keeps them unique |
| ServiceProperties.AddItemPlaces | Sources/S2JSourceList/Core/Services/SourceListService.swift:203-235 | with unique ids, adding a fresh subtree keeps them unique; a root add is found as a root, a child add is found under the requested parent and grows the ids by the subtree's |
| ServiceProperties.AddItemEditsOnePath | Sources/S2JSourceList/Core/Services/SourceListService.swift:203-235 | with a present parent, the add appends to exactly one node carrying the parent id and leaves the rest alone |
| SelectionManager.NewSelection | Sources/S2JSourceList/Core/Selection/SelectionManager.swift:43-59 | a new manager has the given mode (single by default), nothing selected, an empty history and a history bound of 50, which satisfies the manager's invariant |
| SelectionManager.Without | Sources/S2JSourceList/Core/Selection/SelectionManager.swift:149 | removing an id from the history drops every copy of it and keeps every other entry |
| SelectionManager.WithoutCounts | Sources/S2JSourceList/Core/Selection/SelectionManager.swift:149 | removing an id keeps every other entry exactly as many times as it occurred, and no copy of the removed id |
| SelectionManager.WithoutAbsent | Sources/S2JSourceList/Core/Selection/SelectionManager.swift:149 | removing an id that is not in the history changes nothing |
| SelectionManager.WithoutIsSubseq | Sources/S2JSourceList/Core/Selection/SelectionManager.swift:149 | removing an id keeps the other entries in their order |
| SelectionManager.WithoutNoDup | Sources/S2JSourceList/Core/Selection/SelectionManager.swift:149 | removing an id from a history without repeats leaves it without repeats |
| SelectionManager.Trim | Sources/S2JSourceList/Core/Selection/SelectionManager.swift:153-155 | trimming keeps exactly the first `maxHistorySize` entries when the history is over the bound, and every entry otherwise |
| SelectionManager.AddToHistory | Sources/S2JSourceList/Core/Selection/SelectionManager.swift:147-156 | the new id comes first (when the bound is positive), followed by the old history without that id, in order, cut so that the whole is exactly as long as the bound allows |
| SelectionManager.AddToHistoryShape | Sources/S2JSourceList/Core/Selection/SelectionManager.swift:147-156 | a history without repeats keeps none; the new id is first and not repeated; the rest is the old history without the new id, in its old order, cut to the bound |
| SelectionManager.AddToHistoryIdempotent | Sources/S2JSourceList/Core/Selection/SelectionManager.swift:147-156 | in a history without repeats that fits its bound, recording the id already at the front changes nothing |
| SelectionManager.HistoryExample | Sources/S2JSourceList/Core/Selection/SelectionManager.swift:147-156 | recording A, B and C in turn leaves the history C, B, A; with a bound of two it leaves C, B |
| SelectionManager.SelectItem | Sources/S2JSourceList/Core/Selection/SelectionManager.swift:65-74 | single mode replaces the selection with the id and multiple mode adds it; the id goes into the history and the new selection is published |
| SelectionManager.DeselectItem | Sources/S2JSourceList/Core/Selection/SelectionManager.swift:80-83 | the id leaves the selection, the history is untouched and the new selection is published |
| SelectionManager.IsSelected | Sources/S2JSourceList/Core/Selection/SelectionManager.swift:129-131 | an id can only be selected in a non-empty selection; in a valid single-mode state an id is selected exactly when it is the whole selection |
| SelectionManager.SelectionQueries | Sources/S2JSourceList/Core/Selection/SelectionManager.swift:65-131 | after selecting an id it is selected; after deselecting it is not and the other ids answer as before; after clearing none is; selecting in single mode unselects every other id |
| SelectionManager.ToggleSelection | Sources/S2JSourceList/Core/Selection/SelectionManager.swift:89-95 | a selected id is deselected and the other ids stay; an unselected id is selected, alone in single mode and alongside the others in multiple mode; only selecting touches the history; mode and bound are kept; the new selection is published |
| SelectionManager.ToggleTwiceRestoresSelection | Sources/S2JSourceList/Core/Selection/SelectionManager.swift:89-95 | in multiple mode, toggling an id twice gives back the original selected set |
| SelectionManager.ClearSelection | Sources/S2JSourceList/Core/Selection/SelectionManager.swift:100-103 | the selection becomes empty and that is published; the history is untouched |
| SelectionManager.SelectItems | Sources/S2JSourceList/Core/Selection/SelectionManager.swift:109-122 | in single mode an empty set does nothing and otherwise one of its ids is selected; in multiple mode all ids are added, the history records one of them, one notification is published, and the manager's invariant is kept |
| SelectionManager.FirstSelectedId | Sources/S2JSourceList/Core/Selection/SelectionManager.swift:137-139 | there is an answer exactly when something is selected, and it is a selected id |
| SelectionManager.NavigateToPrevious | Sources/S2JSourceList/Core/Selection/SelectionManager.swift:162-167 | with fewer than two history entries nothing happens; otherwise the second entry is selected and returned |
| SelectionManager.AddSecondSwaps | Sources/S2JSourceList/Core/Selection/SelectionManager.swift:147-156 | recording the second entry of a history without repeats that fits its bound swaps its first two entries and keeps the rest |
| SelectionManager.NavigateSwapsFront | Sources/S2JSourceList/Core/Selection/SelectionManager.swift:162-167 | when the history has no repeats and fits its bound, going back returns the second entry, selects it (alone in single mode), swaps the first two history entries and keeps the rest |
| SelectionManager.NavigateTwiceRestoresHistory | Sources/S2JSourceList/Core/Selection/SelectionManager.swift:162-167 | from a valid state with at least two history entries, going back twice restores the original history |
| SelectionManager.NavigateToNext | Sources/S2JSourceList/Core/Selection/SelectionManager.swift:173-178 | going forward never changes the state and never returns an id |
| SelectionManager.OperationsKeepValid | Sources/S2JSourceList/Core/Selection/SelectionManager.swift:65-178 | every operation keeps the history within its bound and without repeats, and in single mode at most one id selected |
| Sidebar.FilteredItems | Sources/S2JSourceList/UI/Views/SidebarView.swift:272-277 | an empty search shows the forest unfiltered; the filter never shows more roots than there are |
| Sidebar.FilterItems | Sources/S2JSourceList/UI/Views/SidebarView.swift:285-301 | the filter never returns more nodes than it is given |
| Sidebar.ContainsIsSubstring | Sources/S2JSourceList/UI/Views/SidebarView.swift:288-297 | the text match holds exactly when the search text occurs as a contiguous run of the title |
| Sidebar.FilterEmptyIff | Sources/S2JSourceList/UI/Views/SidebarView.swift:285-301 | the filter shows nothing exactly when no node anywhere in the forest matches |
| Sidebar.FilterIsKeptSurvivors | Sources/S2JSourceList/UI/Views/SidebarView.swift:285-301 | the filter keeps exactly the roots with a match somewhere in their subtree, each reduced to its surviving part |
| Sidebar.FilterKeepsOrder | Sources/S2JSourceList/UI/Views/SidebarView.swift:285-301 | the filtered roots are a subsequence of the original roots, in the original order |
| Sidebar.FilterRootShape | Sources/S2JSourceList/UI/Views/SidebarView.swift:285-301 | every shown root comes from an input root with the same id; it is that root itself, or it is forced expanded over its surviving children |
| Sidebar.FilterIdempotent | Sources/S2JSourceList/UI/Views/SidebarView.swift:285-301 | filtering an already filtered forest again with the same text changes nothing |
| Sidebar.FilterAppend | Sources/S2JSourceList/UI/Views/SidebarView.swift:285-301 | filtering two forests side by side is filtering each one separately |
| Sidebar.IsItemExpanded | Sources/S2JSourceList/UI/Views/SidebarView.swift:308-310 | a node whose own flag is set is shown expanded; otherwise it is shown expanded exactly when the view has its id in its expanded set |
| Sidebar.ToggleViewExpansion | Sources/S2JSourceList/UI/Views/SidebarView.swift:316-323 | the view's toggle flips the id's membership in its expanded set and leaves every other id alone |
| Sidebar.ToggleViewAgrees | Sources/S2JSourceList/UI/Views/SidebarView.swift:316-323 | with unique ids, after the view toggles a group in the forest, its expanded set and the node's own flag agree on that group, and the view shows the group expanded exactly when the id is in its set |
| Sidebar.ViewToggleIsToggle | Sources/S2JSourceList/UI/Views/SidebarView.swift:316-323 | with unique ids, when the view's set agrees with the group's own flag, the view's toggle changes the store exactly as the service's toggle does and leaves set and flag agreeing again |
| Sidebar.ToggleViewTwice | Sources/S2JSourceList/UI/Views/SidebarView.swift:316-323 | with unique ids, when the view's set agrees with the group's own flag, toggling twice, the second time on the store the first produced, gives back both the expanded set and the forest |
| Sidebar.CollectExpanded | Sources/S2JSourceList/UI/Views/SidebarView.swift:329-343 | only ids of the forest are collected |
| Sidebar.CollectIsPreorder | Sources/S2JSourceList/UI/Views/SidebarView.swift:329-343 | an id is collected exactly when some node in the depth-first listing carries it and is expanded |
| Sidebar.ExpandedAgrees | Sources/S2JSourceList/UI/Views/SidebarView.swift:308-343 | with unique ids, right after collecting, the view shows a node expanded exactly when the node itself is expanded |
| Forest.FirstMatchAppend | Sources/S2JSourceList/Core/Services/SourceListService.swift:50-80 | the first match in two listings side by side is the first listing's match, if any, else the second's |
| Forest.IdsArePreorderIds | Sources/S2JSourceList/Core/Services/SourceListService.swift:50-80 | an id is in the forest exactly when some entry of its depth-first listing carries it |
| Forest.UniqueIdsDetermineEntry | Sources/S2JSourceList/Core/Services/SourceListService.swift:50-80 | with unique ids, two entries of the depth-first listing with the same id are the same entry, parent included |

## Left out

- SwiftUI rendering: the view body, rows, context menus and the rename sheet are out of scope, since they are presentation only.
- Combine publishers: each notification is an entry appended to a log in the state. There are no subscribers and no delivery.
- Icon providers, platform-specific files and `metadata` are not part of this model, because no core operation reads them.
- UUID generation: identifiers are natural numbers supplied by the caller. Only equality between them is used.
- Case folding: `lowercased()` is a parameter `lower` of the filter. The model assumes only that it is a function of the text.
- Substring search:
  - `contains` is modelled as a contiguous-substring test.
  - An empty needle counts as contained.
  - The view reaches the filter only with a non-empty search text.
- Set.first: `SelectionManager.FirstSelectedId` and `SelectionManager.SelectItems` pick an arbitrary member, so their contracts say only that some member was picked.
- `maxHistorySize`:
  - The bound is a `nat`. A negative value would make Swift's `prefix` trap, and that case is not modelled.
  - Assigning `maxHistorySize` or `selectionMode` directly is not modelled. Each is kept as a field, set by the initialiser and read by the operations.
- SourceListService.UpdateItem publishes a change notification even when the id is absent: the source sends `itemsChanged` on both paths (SourceListService.swift:89 and 93), so an update of an unknown id is not silent. The model follows the source.
- SelectionManager.NavigateSwapsFront requires a history without repeats that fits its bound, and `SelectionManager.NavigateTwiceRestoresHistory` requires the whole invariant `SelectionManager.Valid`. Every state the operations reach from a new manager satisfies both (`SelectionManager.OperationsKeepValid`), but the lemmas are not stated for arbitrary hand-built states.
- Duplicate ids: `SourceItem` is `Identifiable` (Sources/S2JSourceList/Core/Models/SourceItem.swift:16) and its initializer gives every new item a fresh `UUID()` by default (SourceItem.swift:75), but nothing in the service rejects a repeated id: `init` takes any forest and `addItem` (Sources/S2JSourceList/Core/Services/SourceListService.swift:203-235) appends without checking. Every member listed here requires `UniqueIds` of the forest it is given, and its row above says "with unique ids": `FindItemExact`, `FindRoot`, `UpdatedRootsAgree`, `UpdateKeepsShape`, `UpdateSameUnique`, `UpdateItemThenFind`, `RenameChangesOnlyTitle`, `DeletedRootsAgree`, `DeleteRemovesSubtree`, `DeleteKeepsUnique`, `DeleteItemRemoves`, `AddKeepsUnique`, `AddItemPlaces`, `ToggleFlips`, `ToggleTwiceRestores`, `ExpandSets`, `CollapseClears`, `ExpandIdempotent`, `CollapseIdempotent`, `Forest.UniqueIdsDetermineEntry`, `Sidebar.ExpandedAgrees`, `Sidebar.ToggleViewAgrees`, `Sidebar.ViewToggleIsToggle` and `Sidebar.ToggleViewTwice`. For forests with repeated ids the model still proves `FindIsFirstInPreorder`, `UpdateEditsOnePath`, `UpdateItemEditsOnePath`, `RenameEditsOnePath`, `DeleteEditsOnePath`, `DeleteItemEditsOnePath` and `AddEditsOnePath`, which hold for every forest, and `ServiceProperties.RenameWithDuplicateIds` shows what goes wrong: with roots `[Group(1, [Item(5)]), Group(5, [Item(7)])]`, renaming 5 finds the nested leaf but replaces the later root, giving `[Group(1, [Item(5)]), Item(5, "t")]`.
- SelectionManager.NavigateToNext returns nothing. The source is an explicit placeholder, and the model keeps it that way.

=== FILE: forest.dfy ===
/**
 * Reference definitions over a forest (an ordered sequence of root nodes):
 * its pre-order listing with direct parents, its set of identifiers, the
 * uniqueness of identifiers, and the "no empty child list" shape.
 * The service's algorithms are specified against these.
 */
module Forest {
  import opened Wrappers
  import opened SourceItem

  /** A node together with its direct parent (`None` for a root). */
  datatype Located = Located(item: Node, parent: Option<Node>)

  /** Number of nodes in the subtree of `n`; the termination measure for every walk. */
  function NodeSize(n: Node): (r: nat)
    decreases n, 1
    ensures n.children.List? ==> r > ForestSize(n.children.nodes)
  {
    1 + (match n.children case List(cs) => ForestSize(cs) case Nil => 0)
  }

  /** Number of nodes in the forest `items`. */
  function ForestSize(items: seq<Node>): (r: nat)
    decreases items, 0
    ensures items != [] ==> r > ForestSize(items[1..])
  {
    if items == [] then 0 else NodeSize(items[0]) + ForestSize(items[1..])
  }

  /**
   * Depth-first pre-order listing of every node of `items` with its direct
   * parent; the roots of `items` are paired with `parent`.
   */
  function Preorder(items: seq<Node>, parent: Option<Node>): seq<Located>
    decreases ForestSize(items)
  {
    if items == [] then []
    else [Located(items[0], parent)] + Preorder(Kids(items[0]), Some(items[0])) + Preorder(items[1..], parent)
  }

  /** The identifiers of all nodes of the forest, at any depth. */
  function Ids(items: seq<Node>): set<Id>
    decreases ForestSize(items)
  {
    if items == [] then {} else {items[0].id} + Ids(Kids(items[0])) + Ids(items[1..])
  }

  /** No identifier occurs twice anywhere in the forest. */
  predicate UniqueIds(items: seq<Node>)
    decreases ForestSize(items)
  {
    items != [] ==>
      var n := items[0];
      && n.id !in Ids(Kids(n))
      && n.id !in Ids(items[1..])
      && Ids(Kids(n)) !! Ids(items[1..])
      && UniqueIds(Kids(n))
      && UniqueIds(items[1..])
  }

  /** Every present child list is non-empty, so `HasChildren` coincides with "the list is present". */
  predicate NoEmptyLists(items: seq<Node>)
    decreases ForestSize(items)
  {
    items != [] ==>
      && (items[0].children.List? ==> items[0].children.nodes != [])
      && NoEmptyLists(Kids(items[0]))
      && NoEmptyLists(items[1..])
  }

  /** The first entry of `es` whose node carries `id`. */
  function FirstMatch(es: seq<Located>, id: Id): (r: Option<Located>)
    ensures r.Some? ==> r.value in es && r.value.item.id == id
    ensures r.None? <==> forall e :: e in es ==> e.item.id != id
  {
    if es == [] then None
    else if es[0].item.id == id then Some(es[0])
    else FirstMatch(es[1..], id)
  }

  lemma {:induction false} FirstMatchAppend(a: seq<Located>, b: seq<Located>, id: Id)
    ensures FirstMatch(a + b, id) == if FirstMatch(a, id).Some? then FirstMatch(a, id) else FirstMatch(b, id)
  {
    if a != [] {
      assert (a + b)[1..] == a[1..] + b;
      FirstMatchAppend(a[1..], b, id);
    } else {
      assert a + b == b;
    }
  }

  /** `Ids` is exactly the set of identifiers listed by the pre-order walk, whatever the root parent. */
  lemma {:induction false} IdsArePreorderIds(items: seq<Node>, parent: Option<Node>, id: Id)
    decreases ForestSize(items)
    ensures id in Ids(items) <==> exists e :: e in Preorder(items, parent) && e.item.id == id
  {
    if items != [] {
      var n := items[0];
      IdsArePreorderIds(Kids(n), Some(n), id);
      IdsArePreorderIds(items[1..], parent, id);
      if id in Ids(items) {
        if id == n.id {
          assert Located(n, parent) in Preorder(items, parent);
        }
      }
    }
  }

  /** The id of every root belongs to the forest's identifiers. */
  lemma RootIdInIds(items: seq<Node>, i: nat)
    requires i < |items|
    ensures items[i].id in Ids(items)
    decreases i
  {
    if i > 0 {
      RootIdInIds(items[1..], i - 1);
    }
  }

  /** Every root of `items` is listed with the root parent. */
  lemma RootsArePreordered(items: seq<Node>, parent: Option<Node>, i: nat)
    requires i < |items|
    ensures Located(items[i], parent) in Preorder(items, parent)
    decreases i
  {
    if i > 0 {
      RootsArePreordered(items[1..], parent, i - 1);
    }
  }

  /**
   * Each listed parent is the real one: an entry either is a root paired with
   * the root parent, or its node is a direct child of its parent.
   */
  lemma {:induction false} PreorderParents(items: seq<Node>, parent: Option<Node>, e: Located)
    requires e in Preorder(items, parent)
    decreases ForestSize(items)
    ensures (e.parent == parent && e.item in items) || (e.parent.Some? && e.item in Kids(e.parent.value))
  {
    var n := items[0];
    if e == Located(n, parent) {
    } else if e in Preorder(Kids(n), Some(n)) {
      PreorderParents(Kids(n), Some(n), e);
    } else {
      PreorderParents(items[1..], parent, e);
    }
  }

  /** With unique identifiers an id determines its node and its parent. */
  lemma {:induction false} UniqueIdsDetermineEntry(items: seq<Node>, parent: Option<Node>, e1: Located, e2: Located)
    requires UniqueIds(items)
    requires e1 in Preorder(items, parent) && e2 in Preorder(items, parent)
    requires e1.item.id == e2.item.id
    decreases ForestSize(items)
    ensures e1 == e2
  {
    var n := items[0];
    var head := Located(n, parent);
    var below := Preorder(Kids(n), Some(n));
    var rest := Preorder(items[1..], parent);
    assert Preorder(items, parent) == [head] + below + rest;
    IdsArePreorderIds(Kids(n), Some(n), e1.item.id);
    IdsArePreorderIds(items[1..], parent, e1.item.id);
    if e1 in below && e2 in below {
      UniqueIdsDetermineEntry(Kids(n), Some(n), e1, e2);
    } else if e1 in rest && e2 in rest {
      UniqueIdsDetermineEntry(items[1..], parent, e1, e2);
    }
  }

  /** A structural edit applied at the end of a path. */
  datatype Edit = Replace(x: Node) | Remove | Append(x: Node)

  /** How an ancestor's child list is rebuilt after an edit below it: only a removal can empty it, and then it becomes `Nil`. */
  function Rewrapped(e: Edit, nodes: seq<Node>): ChildList
  {
    if e.Remove? && nodes == [] then Nil else List(nodes)
  }

  /**
   * `r` is `items` with edit `e` applied to the node reached by `path`
   * (a sequence of sibling indices), which carries `id`. Every node off the
   * path is untouched and keeps its place among its siblings; the ancestors
   * on the path differ only in their rebuilt child list.
   */
  ghost predicate EditedAt(items: seq<Node>, r: seq<Node>, path: seq<nat>, id: Id, e: Edit)
    decreases |path|
  {
    && |path| > 0
    && path[0] < |items|
    && var k := path[0];
       var n := items[k];
       if |path| == 1 then
         && n.id == id
         && match e
            case Replace(x) => r == items[k := x]
            case Remove => r == items[..k] + items[k + 1..]
            case Append(x) => r == items[k := n.(children := List(Kids(n) + [x]))]
       else
         && k < |r|
         && n.children.List?
         && r == items[k := n.(children := Rewrapped(e, Kids(r[k])))]
         && EditedAt(Kids(n), Kids(r[k]), path[1..], id, e)
  }
}

=== FILE: selection_manager.dfy ===
/**
 * The selection state machine of a source list: single or multiple
 * selection, a most-recent-first history without duplicates and capped at
 * `maxHistorySize`, and a log of the selections announced to observers.
 */
module SelectionManager {
  import opened Wrappers
  import opened SourceItem
  import opened Sequences

  datatype Mode = Single | Multiple

  /**
   * The manager's state. `changes` lists, oldest first, every selection set
   * sent to the subscribers of the change notification.
   */
  datatype Selection = Selection(
    mode: Mode,
    selected: set<Id>,
    history: seq<Id>,
    maxHistorySize: nat,
    changes: seq<set<Id>>)

  /** The history cap a new manager starts with. */
  const DefaultMaxHistorySize: nat := 50

  /** A fresh manager: nothing selected, no history, nothing announced. */
  function NewSelection(mode: Mode := Single): (r: Selection)
    ensures r.mode == mode && r.selected == {} && r.history == []
    ensures r.maxHistorySize == DefaultMaxHistorySize && r.changes == []
    ensures Valid(r)
  {
    Selection(mode, {}, [], DefaultMaxHistorySize, [])
  }

  // ------------------------------------------------------------- history

  /** No identifier occurs twice. */
  predicate NoDup(h: seq<Id>)
  {
    forall i, j :: 0 <= i < j < |h| ==> h[i] != h[j]
  }

  /** The history with every occurrence of `x` removed, the rest in order. */
  function Without(h: seq<Id>, x: Id): (r: seq<Id>)
    ensures x !in r
    ensures forall y :: y in r <==> y in h && y != x
    ensures |r| <= |h|
  {
    if h == [] then []
    else if h[0] == x then Without(h[1..], x)
    else [h[0]] + Without(h[1..], x)
  }

  /** The first `max` entries, or all of them when there are fewer. */
  function Trim(h: seq<Id>, max: nat): (r: seq<Id>)
    ensures |r| == if |h| > max then max else |h|
    ensures r == h[..|r|]
  {
    if |h| > max then h[..max] else h
  }

  /** Moves `x` to the front of the history, dropping its earlier occurrences, then trims to `max`. */
  function AddToHistory(h: seq<Id>, x: Id, max: nat): (r: seq<Id>)
    ensures |r| <= max
    ensures max > 0 ==> r != [] && r[0] == x
    ensures |r| == if 1 + |Without(h, x)| > max then max else 1 + |Without(h, x)|
    ensures max > 0 ==> r[1..] == Without(h, x)[..|r| - 1]
    ensures forall y :: y in r ==> y == x || y in h
  {
    Trim([x] + Without(h, x), max)
  }

  /**
   * The manager's invariant: the history has no duplicates and fits the cap,
   * and single mode never holds more than one selected identifier.
   */
  predicate Valid(s: Selection)
  {
    && NoDup(s.history) && |s.history| <= s.maxHistorySize
    && (s.mode.Single? ==> |s.selected| <= 1)
  }

  // ---------------------------------------------------------- operations

  /**
   * Selects `x`: it replaces the selection in single mode and joins it in
   * multiple mode; `x` moves to the front of the history and the new
   * selection is announced.
   */
  function SelectItem(s: Selection, x: Id): (r: Selection)
    ensures r.selected == (if s.mode.Single? then {x} else s.selected + {x})
    ensures r.history == AddToHistory(s.history, x, s.maxHistorySize)
    ensures r.changes == s.changes + [r.selected]
    ensures r.mode == s.mode && r.maxHistorySize == s.maxHistorySize
  {
    var sel := match s.mode
      case Single => {x}
      case Multiple => s.selected + {x};
    s.(selected := sel,
       history := AddToHistory(s.history, x, s.maxHistorySize),
       changes := s.changes + [sel])
  }

  /** Removes `x` from the selection, leaving the history alone, and announces the result. */
  function DeselectItem(s: Selection, x: Id): (r: Selection)
    ensures r.selected == s.selected - {x}
    ensures r.history == s.history && r.mode == s.mode && r.maxHistorySize == s.maxHistorySize
    ensures r.changes == s.changes + [r.selected]
  {
    s.(selected := s.selected - {x}, changes := s.changes + [s.selected - {x}])
  }

  /**
   * Whether `x` is selected. In a valid single-mode state, `x` is selected
   * exactly when it is the whole selection.
   */
  function IsSelected(s: Selection, x: Id): (r: bool)
    ensures r ==> s.selected != {}
    ensures Valid(s) && s.mode.Single? ==> (r <==> s.selected == {x})
  {
    if x in s.selected then
      assert Valid(s) && s.mode.Single? ==> s.selected == {x} by {
        if Valid(s) && s.mode.Single? {
          SingletonOfOne(s.selected, x);
        }
      }
      true
    else false
  }

  /** A set with at most one element that holds `x` is `{x}`. */
  lemma SingletonOfOne(xs: set<Id>, x: Id)
    requires x in xs && |xs| <= 1
    ensures xs == {x}
  {
    assert |xs - {x}| == |xs| - 1;
  }

  /** Deselects `x` when it is selected, selects it otherwise. */
  function ToggleSelection(s: Selection, x: Id): (r: Selection)
    ensures IsSelected(r, x) <==> !IsSelected(s, x)
    ensures r.selected ==
      if IsSelected(s, x) then s.selected - {x}
      else if s.mode.Single? then {x}
      else s.selected + {x}
    ensures IsSelected(s, x) ==> r.history == s.history
    ensures !IsSelected(s, x) ==> r.history == AddToHistory(s.history, x, s.maxHistorySize)
    ensures r.changes == s.changes + [r.selected]
    ensures r.mode == s.mode && r.maxHistorySize == s.maxHistorySize
  {
    if IsSelected(s, x) then DeselectItem(s, x) else SelectItem(s, x)
  }

  /** Empties the selection, leaving the history alone, and announces it. */
  function ClearSelection(s: Selection): (r: Selection)
    ensures r.selected == {} && r.changes == s.changes + [{}]
    ensures r.history == s.history && r.mode == s.mode && r.maxHistorySize == s.maxHistorySize
  {
    s.(selected := {}, changes := s.changes + [{}])
  }

  /**
   * Selects several items. In multiple mode they all join the selection,
   * one of them (the set's first element, in no particular order) moves to
   * the front of the history, and the selection is announced even when
   * `ids` is empty. In single mode one of them is selected as by
   * `SelectItem`, and an empty `ids` changes and announces nothing.
   */
  method SelectItems(s: Selection, ids: set<Id>) returns (r: Selection)
    ensures s.mode.Single? && ids == {} ==> r == s
    ensures s.mode.Single? && ids != {} ==> exists x :: x in ids && r == SelectItem(s, x)
    ensures s.mode.Multiple? ==> r.selected == s.selected + ids && r.changes == s.changes + [r.selected]
    ensures s.mode.Multiple? && ids == {} ==> r.history == s.history
    ensures s.mode.Multiple? && ids != {} ==>
      exists x :: x in ids && r.history == AddToHistory(s.history, x, s.maxHistorySize)
    ensures r.mode == s.mode && r.maxHistorySize == s.maxHistorySize
    ensures Valid(s) ==> Valid(r)
  {
    if s.mode.Single? {
      if ids == {} {
        return s;
      }
      var first :| first in ids;
      if Valid(s) {
        OperationsKeepValid(s, first);
      }
      return SelectItem(s, first);
    }
    var history := s.history;
    if ids != {} {
      var first :| first in ids;
      if Valid(s) {
        AddToHistoryShape(history, first, s.maxHistorySize);
      }
      history := AddToHistory(history, first, s.maxHistorySize);
    }
    var sel := s.selected + ids;
    r := s.(selected := sel, history := history, changes := s.changes + [sel]);
  }

  /** Some selected identifier (the set's first element, in no particular order), or none when nothing is selected. */
  method FirstSelectedId(s: Selection) returns (r: Option<Id>)
    ensures r.None? <==> s.selected == {}
    ensures r.Some? ==> IsSelected(s, r.value)
  {
    if s.selected == {} {
      return None;
    }
    var x :| x in s.selected;
    return Some(x);
  }

  /**
   * Goes back to the second history entry by selecting it; with fewer than
   * two entries nothing happens and there is no result.
   */
  function NavigateToPrevious(s: Selection): (r: (Selection, Option<Id>))
    ensures |s.history| <= 1 ==> r == (s, None)
    ensures |s.history| > 1 ==> r.1 == Some(s.history[1]) && r.0 == SelectItem(s, s.history[1])
  {
    if |s.history| > 1 then (SelectItem(s, s.history[1]), Some(s.history[1])) else (s, None)
  }

  /** Forward navigation keeps no forward history: it never moves and never has a result. */
  function NavigateToNext(s: Selection): (r: (Selection, Option<Id>))
    ensures r.0 == s && r.1.None?
  {
    (s, None)
  }

  // ------------------------------------------------------------ lemmas

  /**
   * Removing `x` drops every copy of it and keeps every other entry as many
   * times as it occurred.
   */
  lemma {:induction false} WithoutCounts(h: seq<Id>, x: Id)
    ensures multiset(Without(h, x)) == multiset(h)[x := 0]
  {
    if h != [] {
      WithoutCounts(h[1..], x);
      assert h == [h[0]] + h[1..];
      assert multiset(h) == multiset{h[0]} + multiset(h[1..]);
    }
  }

  /** Removing `x` from a history without `x` changes nothing. */
  lemma {:induction false} WithoutAbsent(h: seq<Id>, x: Id)
    requires x !in h
    ensures Without(h, x) == h
  {
    if h != [] {
      assert h[0] != x && x !in h[1..];
      WithoutAbsent(h[1..], x);
    }
  }

  /** Removing `x` keeps the other entries in their order. */
  lemma {:induction false} WithoutIsSubseq(h: seq<Id>, x: Id)
    ensures IsSubseq(Without(h, x), h)
  {
    if h != [] {
      WithoutIsSubseq(h[1..], x);
      if h[0] != x {
        assert ([h[0]] + Without(h[1..], x))[1..] == Without(h[1..], x);
      }
    }
  }

  /** Removing `x` from a history without duplicates keeps it without duplicates. */
  lemma {:induction false} WithoutNoDup(h: seq<Id>, x: Id)
    requires NoDup(h)
    ensures NoDup(Without(h, x))
  {
    if h != [] {
      assert NoDup(h[1..]) by {
        forall i, j | 0 <= i < j < |h[1..]| ensures h[1..][i] != h[1..][j] {
          assert h[1..][i] == h[i + 1] && h[1..][j] == h[j + 1];
        }
      }
      WithoutNoDup(h[1..], x);
      if h[0] != x {
        var w := Without(h[1..], x);
        assert h[0] !in h[1..];
        ConsNoDup(h[0], w);
      }
    }
  }

  /** Putting a fresh identifier in front of a history without duplicates keeps it without duplicates. */
  lemma ConsNoDup(x: Id, h: seq<Id>)
    requires NoDup(h) && x !in h
    ensures NoDup([x] + h)
  {
    var c := [x] + h;
    forall i, j | 0 <= i < j < |c| ensures c[i] != c[j] {
      assert c[j] == h[j - 1];
      if i > 0 {
        assert c[i] == h[i - 1];
      }
    }
  }

  /** A prefix of a history without duplicates has none either. */
  lemma PrefixNoDup(h: seq<Id>, n: nat)
    requires NoDup(h) && n <= |h|
    ensures NoDup(h[..n])
  {
    forall i, j | 0 <= i < j < n ensures h[..n][i] != h[..n][j] {
      assert h[..n][i] == h[i] && h[..n][j] == h[j];
    }
  }

  /**
   * `AddToHistory` keeps the history free of duplicates: `x` appears exactly
   * once, at the front, unless the cap is zero, and the entries after it are
   * the older entries in their old order.
   */
  lemma AddToHistoryShape(h: seq<Id>, x: Id, max: nat)
    requires NoDup(h)
    ensures var r := AddToHistory(h, x, max);
      && NoDup(r)
      && (max > 0 ==> r[0] == x && x !in r[1..] && IsSubseq(r[1..], h))
      && (max > 0 ==> r[1..] == Without(h, x)[..|r| - 1])
  {
    var w := Without(h, x);
    WithoutNoDup(h, x);
    ConsNoDup(x, w);
    var full := [x] + w;
    var r := AddToHistory(h, x, max);
    PrefixNoDup(full, |r|);
    if max > 0 {
      assert full[1..] == w;
      assert r[1..] == w[..|r| - 1];
      PrefixIsSubseq(w, |r| - 1);
      WithoutIsSubseq(h, x);
      SubseqTrans(r[1..], w, h);
    }
  }

  /** Adding the entry already at the front of a history without duplicates, within the cap, changes nothing. */
  lemma AddToHistoryIdempotent(h: seq<Id>, x: Id, max: nat)
    requires NoDup(h) && |h| <= max && h != [] && h[0] == x
    ensures AddToHistory(h, x, max) == h
  {
    assert x !in h[1..];
    WithoutAbsent(h[1..], x);
    assert Without(h, x) == h[1..];
    assert [x] + h[1..] == h;
  }

  /** Every operation keeps the history invariant. */
  lemma OperationsKeepValid(s: Selection, x: Id)
    requires Valid(s)
    ensures Valid(SelectItem(s, x))
    ensures Valid(DeselectItem(s, x))
    ensures Valid(ToggleSelection(s, x))
    ensures Valid(ClearSelection(s))
    ensures Valid(NavigateToPrevious(s).0)
    ensures Valid(NavigateToNext(s).0)
  {
    AddToHistoryShape(s.history, x, s.maxHistorySize);
    if |s.history| > 1 {
      AddToHistoryShape(s.history, s.history[1], s.maxHistorySize);
    }
  }

  /** Recording the second entry of a history without duplicates swaps its first two entries. */
  lemma AddSecondSwaps(h: seq<Id>, max: nat)
    requires NoDup(h) && 1 < |h| <= max
    ensures AddToHistory(h, h[1], max) == [h[1], h[0]] + h[2..]
  {
    var b := h[1];
    assert h[0] != b;
    assert b !in h[2..] by {
      forall k | 2 <= k < |h| ensures h[k] != b {
        assert h[k] == h[2..][k - 2];
      }
    }
    WithoutAbsent(h[2..], b);
    assert h[1..][1..] == h[2..];
    assert Without(h, b) == [h[0]] + h[2..];
    assert |[b] + Without(h, b)| == |h|;
  }

  /**
   * Going back swaps the first two history entries when the history has no
   * duplicates and fits its cap; the item gone back to is then selected, and
   * it is the only selected one in single mode.
   */
  lemma NavigateSwapsFront(s: Selection)
    requires NoDup(s.history) && 1 < |s.history| <= s.maxHistorySize
    ensures var (r, prev) := NavigateToPrevious(s);
      && prev == Some(s.history[1])
      && r.history == [s.history[1], s.history[0]] + s.history[2..]
      && IsSelected(r, s.history[1])
      && (s.mode.Single? ==> r.selected == {s.history[1]})
  {
    AddSecondSwaps(s.history, s.maxHistorySize);
  }

  /** Going back twice restores the history. */
  lemma NavigateTwiceRestoresHistory(s: Selection)
    requires Valid(s) && |s.history| > 1
    ensures NavigateToPrevious(NavigateToPrevious(s).0).0.history == s.history
  {
    var h := s.history;
    NavigateSwapsFront(s);
    var r := NavigateToPrevious(s).0;
    OperationsKeepValid(s, h[0]);
    assert Valid(r);
    NavigateSwapsFront(r);
    assert r.history[2..] == h[2..];
    assert [h[0], h[1]] + h[2..] == h;
  }

  /** In multiple mode, toggling twice restores the selection. */
  lemma ToggleTwiceRestoresSelection(s: Selection, x: Id)
    requires s.mode.Multiple?
    ensures ToggleSelection(ToggleSelection(s, x), x).selected == s.selected
  {
  }

  /**
   * What the queries report after each operation: a selected item is
   * selected, a deselected one is not, nothing is selected after clearing.
   */
  lemma SelectionQueries(s: Selection, x: Id, y: Id)
    ensures IsSelected(SelectItem(s, x), x)
    ensures !IsSelected(DeselectItem(s, x), x)
    ensures !IsSelected(ClearSelection(s), y)
    ensures y != x ==> (IsSelected(DeselectItem(s, x), y) <==> IsSelected(s, y))
    ensures s.mode.Single? && y != x ==> !IsSelected(SelectItem(s, x), y)
    ensures s.mode.Multiple? && y != x ==> (IsSelected(SelectItem(s, x), y) <==> IsSelected(s, y))
  {
  }

  /**
   * Recording A, B and C in turn (here 1, 2 and 3) leaves C, B, A, most
   * recent first; with a cap of two only C, B stay.
   */
  lemma HistoryExample()
    ensures AddToHistory(AddToHistory(AddToHistory([], 1, 50), 2, 50), 3, 50) == [3, 2, 1]
    ensures AddToHistory(AddToHistory(AddToHistory([], 1, 2), 2, 2), 3, 2) == [3, 2]
  {
    assert AddToHistory([], 1, 50) == [1];
    assert AddToHistory([1], 2, 50) == [2, 1];
    assert AddToHistory([], 1, 2) == [1];
    assert AddToHistory([1], 2, 2) == [2, 1];
  }
}

=== FILE: sequences.dfy ===
/** Order-preserving selection from a sequence, shared by the history and the search filter. */
module Sequences {

  /** `a` can be obtained from `b` by deleting elements, keeping the order of the rest. */
  predicate IsSubseq<T(==)>(a: seq<T>, b: seq<T>)
    decreases |b|
  {
    if a == [] then true
    else if b == [] then false
    else (a[0] == b[0] && IsSubseq(a[1..], b[1..])) || IsSubseq(a, b[1..])
  }

  /** Being a subsequence is transitive. */
  lemma {:induction false} SubseqTrans<T>(a: seq<T>, b: seq<T>, c: seq<T>)
    requires IsSubseq(a, b) && IsSubseq(b, c)
    ensures IsSubseq(a, c)
    decreases |c|
  {
    if a != [] {
      assert b != [] && c != [];
      if b[0] == c[0] && IsSubseq(b[1..], c[1..]) {
        if a[0] == b[0] && IsSubseq(a[1..], b[1..]) {
          SubseqTrans(a[1..], b[1..], c[1..]);
        } else {
          SubseqTrans(a, b[1..], c[1..]);
        }
      } else {
        SubseqTrans(a, b, c[1..]);
      }
    }
  }

  /** A prefix keeps the order of the entries it keeps. */
  lemma {:induction false} PrefixIsSubseq<T>(a: seq<T>, n: nat)
    requires n <= |a|
    ensures IsSubseq(a[..n], a)
  {
    if n > 0 {
      PrefixIsSubseq(a[1..], n - 1);
      assert a[..n][1..] == a[1..][..n - 1];
    }
  }
}

=== FILE: service_properties.dfy ===
/**
 * Properties of the source-list service that relate several calls or need
 * induction over the forest: find agrees with the pre-order listing, and
 * update, rename, delete, add and the expansion operations touch exactly
 * the node they name.
 */
module ServiceProperties {
  import opened Wrappers
  import opened SourceItem
  import opened Forest
  import opened SourceListService

  // ------------------------------------------------------------- helpers

  /** One step of the replacement past a first root that does not match. */
  lemma UpdateStep(items: seq<Node>, x: Node)
    requires items != [] && items[0].id != x.id
    ensures var n := items[0];
      UpdateItemInChildren(items, x) ==
        if x.id in Ids(Kids(n)) then ([n.(children := List(UpdateItemInChildren(Kids(n), x).0))] + items[1..], true)
        else ([n] + UpdateItemInChildren(items[1..], x).0, UpdateItemInChildren(items[1..], x).1)
  {
  }

  /** One step of the removal past a first root that does not match. */
  lemma DeleteStep(items: seq<Node>, id: Id)
    requires items != [] && items[0].id != id
    ensures var n := items[0];
      DeleteItemFromChildren(items, id) ==
        if id in Ids(Kids(n)) then ([n.(children := Rewrap(DeleteItemFromChildren(Kids(n), id).0))] + items[1..], true)
        else ([n] + DeleteItemFromChildren(items[1..], id).0, DeleteItemFromChildren(items[1..], id).1)
  {
  }

  /** One step of the insertion past a first root that is not the parent. */
  lemma AddStep(items: seq<Node>, x: Node, parentId: Id)
    requires items != [] && items[0].id != parentId
    ensures var n := items[0];
      AddItemToParent(items, x, parentId) ==
        if parentId in Ids(Kids(n)) then ([n.(children := List(AddItemToParent(Kids(n), x, parentId).0))] + items[1..], true)
        else ([n] + AddItemToParent(items[1..], x, parentId).0, AddItemToParent(items[1..], x, parentId).1)
  {
  }

  /** Putting `m` before the tail of a non-empty sequence replaces its head. */
  lemma ConsIsUpdate(items: seq<Node>, m: Node)
    requires items != []
    ensures [m] + items[1..] == items[0 := m]
  {
  }

  /** A non-empty sequence is its head followed by its tail. */
  lemma HeadTail(items: seq<Node>)
    requires items != []
    ensures [items[0]] + items[1..] == items
  {
  }

  /** An edit of the tail's root `k` is the same edit of root `k + 1` in the whole forest. */
  lemma ShiftRootEdit(n: Node, items: seq<Node>, r: seq<Node>, k: nat, id: Id, e: Edit)
    requires EditedAt(items, r, [k], id, e)
    ensures EditedAt([n] + items, [n] + r, [k + 1], id, e)
  {
    var items', r' := [n] + items, [n] + r;
    assert items'[k + 1] == items[k];
    match e
    case Replace(x) =>
      assert r' == items'[k + 1 := x];
    case Remove =>
      assert r' == items'[..k + 1] + items'[k + 2..];
    case Append(x) =>
      assert r' == items'[k + 1 := items[k].(children := List(Kids(items[k]) + [x]))];
  }

  /** An edit below the tail's root `k` is the same edit below root `k + 1` in the whole forest. */
  lemma ShiftDeepEdit(n: Node, items: seq<Node>, r: seq<Node>, path: seq<nat>, id: Id, e: Edit)
    requires |path| > 1 && EditedAt(items, r, path, id, e)
    ensures EditedAt([n] + items, [n] + r, [path[0] + 1] + path[1..], id, e)
  {
    var k := path[0];
    var items', r', path' := [n] + items, [n] + r, [path[0] + 1] + path[1..];
    assert items'[k + 1] == items[k];
    assert path'[1..] == path[1..];
    assert r'[k + 1] == r[k];
    assert r' == items'[k + 1 := items[k].(children := Rewrapped(e, Kids(r[k])))];
  }

  /** An edit at `path` in the tail of a forest is the same edit one index further in the whole forest. */
  lemma ShiftEdit(n: Node, items: seq<Node>, r: seq<Node>, path: seq<nat>, id: Id, e: Edit)
    requires EditedAt(items, r, path, id, e)
    ensures EditedAt([n] + items, [n] + r, [path[0] + 1] + path[1..], id, e)
  {
    if |path| == 1 {
      assert path == [path[0]] && [path[0] + 1] + path[1..] == [path[0] + 1];
      ShiftRootEdit(n, items, r, path[0], id, e);
    } else {
      ShiftDeepEdit(n, items, r, path, id, e);
    }
  }

  /** An edit below the first root is the edit at the path extended by index 0. */
  lemma DescendEdit(items: seq<Node>, below: seq<Node>, r: seq<Node>, sub: seq<nat>, id: Id, e: Edit)
    requires items != [] && items[0].children.List?
    requires EditedAt(Kids(items[0]), below, sub, id, e)
    requires r == items[0 := items[0].(children := Rewrapped(e, below))]
    ensures EditedAt(items, r, [0] + sub, id, e)
  {
    assert Kids(r[0]) == below;
    assert ([0] + sub)[1..] == sub;
  }

  /** An edit of root `i` is the edit at the one-element path `[i]`. */
  lemma RootEdit(items: seq<Node>, r: seq<Node>, i: nat, id: Id, e: Edit)
    requires i < |items| && items[i].id == id
    requires match e
      case Replace(x) => r == items[i := x]
      case Remove => r == items[..i] + items[i + 1..]
      case Append(x) => r == items[i := items[i].(children := List(Kids(items[i]) + [x]))]
    ensures EditedAt(items, r, [i], id, e)
  {
  }

  /** The first `i` roots followed by the rest, as seen by `Ids`. */
  lemma IdsOfPrefix(items: seq<Node>, i: nat)
    requires 0 < i <= |items|
    ensures Ids(items[..i]) == {items[0].id} + Ids(Kids(items[0])) + Ids(items[1..][..i - 1])
  {
    assert items[..i][0] == items[0];
    assert items[..i][1..] == items[1..][..i - 1];
  }

  /** With unique identifiers no root shares its id with anything listed before it. */
  lemma {:induction false} UniquePrefix(items: seq<Node>, i: nat)
    requires UniqueIds(items) && i < |items|
    ensures items[i].id !in Ids(items[..i])
    decreases i
  {
    if i > 0 {
      IdsOfPrefix(items, i);
      UniquePrefix(items[1..], i - 1);
      RootIdInIds(items[1..], i - 1);
    }
  }

  // ---------------------------------------------------------------- find

  /** The search returns the first entry of the pre-order listing that carries `id`. */
  lemma {:induction false} FindIsFirstInPreorder(items: seq<Node>, id: Id, parent: Option<Node>)
    decreases ForestSize(items)
    ensures FindItemIn(items, id, parent) == FirstMatch(Preorder(items, parent), id)
  {
    if items != [] {
      var n := items[0];
      var head, below, rest := [Located(n, parent)], Preorder(Kids(n), Some(n)), Preorder(items[1..], parent);
      assert Preorder(items, parent) == head + (below + rest);
      FirstMatchAppend(head, below + rest, id);
      FirstMatchAppend(below, rest, id);
      FindIsFirstInPreorder(Kids(n), id, Some(n));
      FindIsFirstInPreorder(items[1..], id, parent);
    }
  }

  /** With unique identifiers the search returns exactly the listed node and its real parent. */
  lemma FindItemExact(s: Store, e: Located)
    requires UniqueIds(s.rootItems)
    requires e in Preorder(s.rootItems, None)
    ensures FindItem(s, e.item.id) == Some(e)
  {
    FindIsFirstInPreorder(s.rootItems, e.item.id, None);
    var f := FindItem(s, e.item.id);
    UniqueIdsDetermineEntry(s.rootItems, None, f.value, e);
  }

  /** A found node with no parent is a root; otherwise it is a direct child of the reported parent. */
  lemma FindItemParent(s: Store, id: Id)
    requires FindItem(s, id).Some?
    ensures var found := FindItem(s, id).value;
      || (found.parent.None? && found.item in s.rootItems)
      || (found.parent.Some? && found.item in Kids(found.parent.value))
  {
    FindIsFirstInPreorder(s.rootItems, id, None);
    PreorderParents(s.rootItems, None, FindItem(s, id).value);
  }

  /** With unique identifiers looking up a root's id yields that root and no parent. */
  lemma FindRoot(s: Store, i: nat)
    requires UniqueIds(s.rootItems) && i < |s.rootItems|
    ensures FindItem(s, s.rootItems[i].id) == Some(Located(s.rootItems[i], None))
  {
    RootsArePreordered(s.rootItems, None, i);
    FindItemExact(s, Located(s.rootItems[i], None));
  }

  // -------------------------------------------------------------- update

  /** Replacing element `i > 0` of a sequence is keeping its head and replacing element `i - 1` of its tail. */
  lemma ReplaceAfterHead(items: seq<Node>, i: nat, x: Node)
    requires 0 < i < |items|
    ensures items[i := x] == [items[0]] + items[1..][i - 1 := x]
  {
  }

  /** When `x.id` first appears on root `i`, the pre-order replacement replaces that root. */
  lemma {:induction false} UpdateAtFirstRoot(items: seq<Node>, x: Node, i: nat)
    requires i < |items| && items[i].id == x.id && x.id !in Ids(items[..i])
    ensures UpdateItemInChildren(items, x) == (items[i := x], true)
    decreases i
  {
    if i > 0 {
      IdsOfPrefix(items, i);
      UpdateAtFirstRoot(items[1..], x, i - 1);
      UpdateStep(items, x);
      ReplaceAfterHead(items, i, x);
    } else {
      assert items[0 := x] == [x] + items[1..];
    }
  }

  /** With unique identifiers the root-first replacement agrees with the pre-order one. */
  lemma UpdatedRootsAgree(roots: seq<Node>, x: Node)
    requires UniqueIds(roots)
    ensures UpdatedRoots(roots, x) == UpdateItemInChildren(roots, x).0
  {
    match IndexOf(roots, x.id)
    case Some(i) =>
      UniquePrefix(roots, i);
      UpdateAtFirstRoot(roots, x, i);
    case None =>
  }

  /** After a replacement the search for `x.id` finds `x` itself. */
  lemma {:induction false} UpdateThenFind(items: seq<Node>, x: Node, parent: Option<Node>)
    requires x.id in Ids(items)
    decreases ForestSize(items)
    ensures var f := FindItemIn(UpdateItemInChildren(items, x).0, x.id, parent);
      f.Some? && f.value.item == x
  {
    var n := items[0];
    if n.id != x.id {
      var below := UpdateItemInChildren(Kids(n), x);
      UpdateStep(items, x);
      if x.id in Ids(Kids(n)) {
        var n' := n.(children := List(below.0));
        UpdateThenFind(Kids(n), x, Some(n'));
        assert ([n'] + items[1..])[0] == n';
      } else {
        UpdateThenFind(items[1..], x, parent);
        var r := UpdateItemInChildren(items, x).0;
        assert r[0] == n && r[1..] == UpdateItemInChildren(items[1..], x).0;
      }
    }
  }

  /** Replacing twice with the same value is replacing once. */
  lemma {:induction false} UpdateInIdempotent(items: seq<Node>, x: Node)
    decreases ForestSize(items)
    ensures var once := UpdateItemInChildren(items, x);
      UpdateItemInChildren(once.0, x) == once
  {
    if items != [] {
      var n := items[0];
      var once := UpdateItemInChildren(items, x);
      if n.id == x.id {
        assert once.0[0] == x && once.0[1..] == items[1..];
      } else {
        var below := UpdateItemInChildren(Kids(n), x);
        UpdateStep(items, x);
        if x.id in Ids(Kids(n)) {
          UpdateInIdempotent(Kids(n), x);
          var n' := n.(children := List(below.0));
          assert once.0[0] == n' && once.0[1..] == items[1..];
        } else {
          UpdateInIdempotent(items[1..], x);
          assert once.0[0] == n && once.0[1..] == UpdateItemInChildren(items[1..], x).0;
        }
      }
    }
  }

  /** Replacing with the node the search found restores the forest. */
  lemma {:induction false} UpdateRestores(items: seq<Node>, x: Node, parent: Option<Node>)
    requires x.id in Ids(items)
    decreases ForestSize(items)
    ensures var original := FindItemIn(items, x.id, parent).value.item;
      UpdateItemInChildren(UpdateItemInChildren(items, x).0, original).0 == items
  {
    var n := items[0];
    var once := UpdateItemInChildren(items, x);
    var original := FindItemIn(items, x.id, parent).value.item;
    if n.id == x.id {
      assert once.0[0] == x && once.0[1..] == items[1..];
      HeadTail(items);
    } else {
      var below := UpdateItemInChildren(Kids(n), x);
      UpdateStep(items, x);
      if x.id in Ids(Kids(n)) {
        UpdateRestores(Kids(n), x, Some(n));
        assert once.0[0] == n.(children := List(below.0)) && once.0[1..] == items[1..];
        HeadTail(items);
      } else {
        UpdateRestores(items[1..], x, parent);
        assert once.0[0] == n && once.0[1..] == UpdateItemInChildren(items[1..], x).0;
        HeadTail(items);
      }
    }
  }

  /** A replacement that keeps the found node's child list keeps the identifiers. */
  lemma {:induction false} UpdateSameIds(items: seq<Node>, x: Node, parent: Option<Node>)
    requires x.id in Ids(items)
    requires FindItemIn(items, x.id, parent).value.item.children == x.children
    decreases ForestSize(items)
    ensures Ids(UpdateItemInChildren(items, x).0) == Ids(items)
  {
    var n := items[0];
    var r := UpdateItemInChildren(items, x).0;
    if n.id == x.id {
      assert r[0] == x && r[1..] == items[1..];
    } else {
      var below := UpdateItemInChildren(Kids(n), x);
      UpdateStep(items, x);
      if x.id in Ids(Kids(n)) {
        UpdateSameIds(Kids(n), x, Some(n));
        assert r[0] == n.(children := List(below.0)) && r[1..] == items[1..];
      } else {
        UpdateSameIds(items[1..], x, parent);
        assert r[0] == n && r[1..] == UpdateItemInChildren(items[1..], x).0;
      }
    }
  }

  /** A replacement that keeps the found node's child list keeps identifiers unique. */
  lemma {:induction false} UpdateSameUnique(items: seq<Node>, x: Node, parent: Option<Node>)
    requires UniqueIds(items) && x.id in Ids(items)
    requires FindItemIn(items, x.id, parent).value.item.children == x.children
    decreases ForestSize(items)
    ensures UniqueIds(UpdateItemInChildren(items, x).0)
  {
    var n := items[0];
    var r := UpdateItemInChildren(items, x).0;
    if n.id == x.id {
      assert r[0] == x && r[1..] == items[1..];
    } else {
      var below := UpdateItemInChildren(Kids(n), x);
      UpdateStep(items, x);
      if x.id in Ids(Kids(n)) {
        UpdateSameUnique(Kids(n), x, Some(n));
        UpdateSameIds(Kids(n), x, Some(n));
        assert r[0] == n.(children := List(below.0)) && r[1..] == items[1..];
      } else {
        UpdateSameUnique(items[1..], x, parent);
        UpdateSameIds(items[1..], x, parent);
        assert r[0] == n && r[1..] == UpdateItemInChildren(items[1..], x).0;
      }
    }
  }

  /** A replacement that keeps the found node's child list keeps every child list non-empty. */
  lemma {:induction false} UpdateSameNoEmptyLists(items: seq<Node>, x: Node, parent: Option<Node>)
    requires NoEmptyLists(items) && x.id in Ids(items)
    requires FindItemIn(items, x.id, parent).value.item.children == x.children
    decreases ForestSize(items)
    ensures NoEmptyLists(UpdateItemInChildren(items, x).0)
  {
    var n := items[0];
    var r := UpdateItemInChildren(items, x).0;
    if n.id == x.id {
      assert r[0] == x && r[1..] == items[1..];
    } else {
      var below := UpdateItemInChildren(Kids(n), x);
      UpdateStep(items, x);
      if x.id in Ids(Kids(n)) {
        UpdateSameNoEmptyLists(Kids(n), x, Some(n));
        assert r[0] == n.(children := List(below.0)) && r[1..] == items[1..];
      } else {
        UpdateSameNoEmptyLists(items[1..], x, parent);
        assert r[0] == n && r[1..] == UpdateItemInChildren(items[1..], x).0;
      }
    }
  }

  /** The path of a replacement below the first root extends the path found in its children by index 0. */
  lemma UpdatePathBelow(items: seq<Node>, x: Node, sub: seq<nat>)
    requires items != [] && items[0].id != x.id && x.id in Ids(Kids(items[0]))
    requires EditedAt(Kids(items[0]), UpdateItemInChildren(Kids(items[0]), x).0, sub, x.id, Replace(x))
    ensures EditedAt(items, UpdateItemInChildren(items, x).0, [0] + sub, x.id, Replace(x))
  {
    var n, below := items[0], UpdateItemInChildren(Kids(items[0]), x).0;
    UpdateStep(items, x);
    assert List(below) == Rewrapped(Replace(x), below);
    ConsIsUpdate(items, n.(children := List(below)));
    DescendEdit(items, below, UpdateItemInChildren(items, x).0, sub, x.id, Replace(x));
  }

  /** The path of a replacement past the first root is the path found in the later roots, shifted by one. */
  lemma UpdatePathPast(items: seq<Node>, x: Node, sub: seq<nat>)
    requires items != [] && items[0].id != x.id && x.id !in Ids(Kids(items[0]))
    requires EditedAt(items[1..], UpdateItemInChildren(items[1..], x).0, sub, x.id, Replace(x))
    ensures EditedAt(items, UpdateItemInChildren(items, x).0, [sub[0] + 1] + sub[1..], x.id, Replace(x))
  {
    UpdateStep(items, x);
    ShiftEdit(items[0], items[1..], UpdateItemInChildren(items[1..], x).0, sub, x.id, Replace(x));
    HeadTail(items);
  }

  /** A replacement is one edit at one path: nothing off that path changes. */
  lemma {:induction false} UpdateEditsOnePath(items: seq<Node>, x: Node) returns (path: seq<nat>)
    requires x.id in Ids(items)
    decreases ForestSize(items)
    ensures EditedAt(items, UpdateItemInChildren(items, x).0, path, x.id, Replace(x))
  {
    if items[0].id == x.id {
      RootEdit(items, UpdateItemInChildren(items, x).0, 0, x.id, Replace(x));
      path := [0];
    } else if x.id in Ids(Kids(items[0])) {
      var sub := UpdateEditsOnePath(Kids(items[0]), x);
      UpdatePathBelow(items, x, sub);
      path := [0] + sub;
    } else {
      var sub := UpdateEditsOnePath(items[1..], x);
      UpdatePathPast(items, x, sub);
      path := [sub[0] + 1] + sub[1..];
    }
  }

  /** `UpdateItem` replaces one node, at one path, by `x`: nothing off that path changes. */
  lemma UpdateItemEditsOnePath(s: Store, x: Node)
    requires x.id in Ids(s.rootItems)
    ensures exists path :: EditedAt(s.rootItems, UpdateItem(s, x).rootItems, path, x.id, Replace(x))
  {
    var roots, r := s.rootItems, UpdateItem(s, x).rootItems;
    var at := IndexOf(roots, x.id);
    if at.Some? {
      assert r == roots[at.value := x];
      RootEdit(roots, r, at.value, x.id, Replace(x));
    } else {
      var path := UpdateEditsOnePath(roots, x);
      assert r == UpdateItemInChildren(roots, x).0;
      assert EditedAt(roots, r, path, x.id, Replace(x));
    }
  }

  /** With unique identifiers the search after `UpdateItem` finds `x` itself. */
  lemma UpdateItemThenFind(s: Store, x: Node)
    requires UniqueIds(s.rootItems) && x.id in Ids(s.rootItems)
    ensures FindItem(UpdateItem(s, x), x.id).Some? && FindItem(UpdateItem(s, x), x.id).value.item == x
  {
    UpdatedRootsAgree(s.rootItems, x);
    UpdateThenFind(s.rootItems, x, None);
  }

  /** Applying the same whole-value update twice leaves the forest as one application does; only one more change notification is sent. */
  lemma UpdateItemIdempotent(s: Store, x: Node)
    ensures UpdateItem(UpdateItem(s, x), x).rootItems == UpdateItem(s, x).rootItems
    ensures UpdateItem(UpdateItem(s, x), x).events ==
      UpdateItem(s, x).events + [ItemsChanged(UpdateItem(s, x).rootItems)]
  {
    var roots := s.rootItems;
    var once := UpdatedRoots(roots, x);
    match IndexOf(roots, x.id)
    case Some(i) =>
      assert IndexOf(once, x.id) == Some(i);
      assert once[i := x] == once;
    case None =>
      assert IndexOf(once, x.id).None?;
      UpdateInIdempotent(roots, x);
  }

  /**
   * An update that keeps the found node's child list (rename and the
   * expansion operations) keeps the identifiers, their uniqueness and the
   * list shape, and the search then finds the new value.
   */
  lemma UpdateKeepsShape(s: Store, x: Node)
    requires UniqueIds(s.rootItems) && x.id in Ids(s.rootItems)
    requires FindItem(s, x.id).value.item.children == x.children
    ensures var r := UpdateItem(s, x).rootItems;
      && Ids(r) == Ids(s.rootItems)
      && UniqueIds(r)
      && (NoEmptyLists(s.rootItems) ==> NoEmptyLists(r))
      && FindItem(UpdateItem(s, x), x.id).Some? && FindItem(UpdateItem(s, x), x.id).value.item == x
  {
    UpdatedRootsAgree(s.rootItems, x);
    UpdateSameIds(s.rootItems, x, None);
    UpdateSameUnique(s.rootItems, x, None);
    if NoEmptyLists(s.rootItems) {
      UpdateSameNoEmptyLists(s.rootItems, x, None);
    }
    UpdateItemThenFind(s, x);
  }

  // -------------------------------------------------------------- rename

  /**
   * With unique identifiers a rename of a present node changes its title and
   * nothing else of it; the identifiers of the forest stay as they were.
   */
  lemma RenameChangesOnlyTitle(s: Store, id: Id, newTitle: string)
    requires UniqueIds(s.rootItems) && id in Ids(s.rootItems)
    ensures var before := FindItem(s, id).value.item;
      var r := RenameItem(s, id, newTitle);
      && FindItem(r, id).Some?
      && FindItem(r, id).value.item == before.(title := newTitle)
      && Ids(r.rootItems) == Ids(s.rootItems)
      && UniqueIds(r.rootItems)
  {
    var before := FindItem(s, id).value.item;
    UpdateKeepsShape(s, before.(title := newTitle));
  }

  /** A rename of a present node replaces that one node and leaves every other node where it was. */
  lemma RenameEditsOnePath(s: Store, id: Id, newTitle: string)
    requires id in Ids(s.rootItems)
    ensures var before := FindItem(s, id).value.item;
      exists path :: EditedAt(s.rootItems, RenameItem(s, id, newTitle).rootItems, path, id, Replace(before.(title := newTitle)))
  {
    var x := FindItem(s, id).value.item.(title := newTitle);
    assert RenameItem(s, id, newTitle).rootItems == UpdateItem(s, x).rootItems;
    UpdateItemEditsOnePath(s, x);
  }

  /**
   * With a repeated identifier the two searches disagree: the lookup finds
   * the nested leaf 5 under group 1, but the update replaces the later root
   * 5, so that root and its whole subtree give way to the retitled leaf.
   */
  lemma RenameWithDuplicateIds()
    ensures var leaf5 := Node(5, "a", None, None, Nil, false, true, false);
      var leaf7 := Node(7, "b", None, None, Nil, false, true, false);
      var group1 := Node(1, "g", None, None, List([leaf5]), false, false, false);
      var group5 := Node(5, "h", None, None, List([leaf7]), false, false, false);
      RenameItem(NewStore([group1, group5]), 5, "t").rootItems == [group1, leaf5.(title := "t")]
  {
    var leaf5 := Node(5, "a", None, None, Nil, false, true, false);
    var leaf7 := Node(7, "b", None, None, Nil, false, true, false);
    var group1 := Node(1, "g", None, None, List([leaf5]), false, false, false);
    var group5 := Node(5, "h", None, None, List([leaf7]), false, false, false);
    var s := NewStore([group1, group5]);
    assert FindItemIn([leaf5], 5, Some(group1)) == Some(Located(leaf5, Some(group1)));
    assert FindItem(s, 5) == Some(Located(leaf5, Some(group1)));
    assert IndexOf(s.rootItems, 5) == Some(1);
  }

  // ----------------------------------------------------------- expansion

  /** Toggling a node with children flips its flag and changes nothing else. */
  lemma ToggleFlips(s: Store, id: Id)
    requires UniqueIds(s.rootItems) && id in Ids(s.rootItems)
    requires HasChildren(FindItem(s, id).value.item)
    ensures var before := FindItem(s, id).value.item;
      var r := ToggleExpansion(s, id);
      && FindItem(r, id).Some?
      && FindItem(r, id).value.item == before.(isExpanded := !before.isExpanded)
      && UniqueIds(r.rootItems)
      && Ids(r.rootItems) == Ids(s.rootItems)
      && exists path :: EditedAt(s.rootItems, r.rootItems, path, id, Replace(FindItem(r, id).value.item))
  {
    var before := FindItem(s, id).value.item;
    UpdateKeepsShape(s, before.(isExpanded := !before.isExpanded));
    UpdateItemEditsOnePath(s, before.(isExpanded := !before.isExpanded));
  }

  /** Toggling the same node twice restores the forest. */
  lemma ToggleTwiceRestores(s: Store, id: Id)
    requires UniqueIds(s.rootItems)
    ensures ToggleExpansion(ToggleExpansion(s, id), id).rootItems == s.rootItems
  {
    match FindItem(s, id)
    case None =>
    case Some(found) =>
      var n := found.item;
      if HasChildren(n) {
        var flipped := n.(isExpanded := !n.isExpanded);
        var s1 := ToggleExpansion(s, id);
        UpdateKeepsShape(s, flipped);
        assert flipped.(isExpanded := !flipped.isExpanded) == n;
        UpdatedRootsAgree(s.rootItems, flipped);
        UpdatedRootsAgree(s1.rootItems, n);
        UpdateRestores(s.rootItems, flipped, None);
      }
  }

  /**
   * After expanding a present node that has children, it is expanded; when it
   * was collapsed, exactly that node is replaced and the identifiers stay,
   * and when it was already expanded nothing changes.
   */
  lemma ExpandSets(s: Store, id: Id)
    requires UniqueIds(s.rootItems) && id in Ids(s.rootItems)
    requires HasChildren(FindItem(s, id).value.item)
    ensures var before := FindItem(s, id).value.item;
      var r := ExpandItem(s, id);
      && FindItem(r, id).Some?
      && FindItem(r, id).value.item == before.(isExpanded := true)
      && UniqueIds(r.rootItems)
      && Ids(r.rootItems) == Ids(s.rootItems)
      && (before.isExpanded ==> r == s)
      && (!before.isExpanded ==> exists path :: EditedAt(s.rootItems, r.rootItems, path, id, Replace(before.(isExpanded := true))))
  {
    var before := FindItem(s, id).value.item;
    if !before.isExpanded {
      UpdateKeepsShape(s, before.(isExpanded := true));
      UpdateItemEditsOnePath(s, before.(isExpanded := true));
    } else {
      assert before.(isExpanded := true) == before;
    }
  }

  /**
   * After collapsing a present node that has children, it is collapsed; when
   * it was expanded, exactly that node is replaced and the identifiers stay,
   * and when it was already collapsed nothing changes.
   */
  lemma CollapseClears(s: Store, id: Id)
    requires UniqueIds(s.rootItems) && id in Ids(s.rootItems)
    requires HasChildren(FindItem(s, id).value.item)
    ensures var before := FindItem(s, id).value.item;
      var r := CollapseItem(s, id);
      && FindItem(r, id).Some?
      && FindItem(r, id).value.item == before.(isExpanded := false)
      && UniqueIds(r.rootItems)
      && Ids(r.rootItems) == Ids(s.rootItems)
      && (!before.isExpanded ==> r == s)
      && (before.isExpanded ==> exists path :: EditedAt(s.rootItems, r.rootItems, path, id, Replace(before.(isExpanded := false))))
  {
    var before := FindItem(s, id).value.item;
    if before.isExpanded {
      UpdateKeepsShape(s, before.(isExpanded := false));
      UpdateItemEditsOnePath(s, before.(isExpanded := false));
    } else {
      assert before.(isExpanded := false) == before;
    }
  }

  /** Expanding twice is expanding once, events included. */
  lemma ExpandIdempotent(s: Store, id: Id)
    requires UniqueIds(s.rootItems)
    ensures ExpandItem(ExpandItem(s, id), id) == ExpandItem(s, id)
  {
    if id in Ids(s.rootItems) && HasChildren(FindItem(s, id).value.item) {
      ExpandSets(s, id);
    }
  }

  /** Collapsing twice is collapsing once, events included. */
  lemma CollapseIdempotent(s: Store, id: Id)
    requires UniqueIds(s.rootItems)
    ensures CollapseItem(CollapseItem(s, id), id) == CollapseItem(s, id)
  {
    if id in Ids(s.rootItems) && HasChildren(FindItem(s, id).value.item) {
      CollapseClears(s, id);
    }
  }

  // -------------------------------------------------------------- delete

  /** The subtree of a found node lies inside the forest. */
  lemma {:induction false} FoundSubtreeIds(items: seq<Node>, id: Id, parent: Option<Node>)
    requires id in Ids(items)
    decreases ForestSize(items)
    ensures Ids([FindItemIn(items, id, parent).value.item]) <= Ids(items)
  {
    var n := items[0];
    var t := FindItemIn(items, id, parent).value.item;
    assert [t][1..] == [];
    if n.id != id {
      if id in Ids(Kids(n)) {
        FoundSubtreeIds(Kids(n), id, Some(n));
      } else {
        FoundSubtreeIds(items[1..], id, parent);
      }
    }
  }

  /** Dropping element `i > 0` of a sequence is keeping its head and dropping element `i - 1` of its tail. */
  lemma DropAfterHead(items: seq<Node>, i: nat)
    requires 0 < i < |items|
    ensures items[..i] + items[i + 1..] == [items[0]] + (items[1..][..i - 1] + items[1..][i..])
  {
    assert items[..i] == [items[0]] + items[1..][..i - 1];
    assert items[i + 1..] == items[1..][i..];
  }

  /** When `id` first appears on root `i`, the pre-order removal drops exactly that root. */
  lemma {:induction false} DeleteAtFirstRoot(items: seq<Node>, id: Id, i: nat)
    requires i < |items| && items[i].id == id && id !in Ids(items[..i])
    ensures DeleteItemFromChildren(items, id) == (items[..i] + items[i + 1..], true)
    decreases i
  {
    if i > 0 {
      var rest := items[1..];
      assert items[0].id != id && id !in Ids(Kids(items[0])) && id !in Ids(rest[..i - 1]) by {
        IdsOfPrefix(items, i);
      }
      DeleteAtFirstRoot(rest, id, i - 1);
      DeleteStep(items, id);
      DropAfterHead(items, i);
    } else {
      assert items[..0] + items[1..] == items[1..];
    }
  }

  /** With unique identifiers the root-first removal agrees with the pre-order one. */
  lemma DeletedRootsAgree(roots: seq<Node>, id: Id)
    requires UniqueIds(roots)
    ensures DeletedRoots(roots, id) == DeleteItemFromChildren(roots, id).0
  {
    var at := IndexOf(roots, id);
    if at.Some? {
      UniquePrefix(roots, at.value);
      DeleteAtFirstRoot(roots, id, at.value);
    }
  }

  /** A removal never brings in an identifier. */
  lemma {:induction false} DeleteShrinksIds(items: seq<Node>, id: Id)
    decreases ForestSize(items)
    ensures Ids(DeleteItemFromChildren(items, id).0) <= Ids(items)
  {
    if items != [] {
      var n := items[0];
      var r := DeleteItemFromChildren(items, id).0;
      if n.id == id {
        assert r == items[1..];
      } else {
        var below := DeleteItemFromChildren(Kids(n), id);
        DeleteStep(items, id);
        if id in Ids(Kids(n)) {
          DeleteShrinksIds(Kids(n), id);
          assert Kids(r[0]) == below.0 && r[0].id == n.id && r[1..] == items[1..];
        } else {
          DeleteShrinksIds(items[1..], id);
          assert r[0] == n && r[1..] == DeleteItemFromChildren(items[1..], id).0;
        }
      }
    }
  }

  /** With unique identifiers a removal takes away exactly the identifiers of the found node's subtree. */
  lemma {:induction false} DeleteRemovesSubtree(items: seq<Node>, id: Id, parent: Option<Node>)
    requires UniqueIds(items) && id in Ids(items)
    decreases ForestSize(items)
    ensures var gone := FindItemIn(items, id, parent).value.item;
      Ids(DeleteItemFromChildren(items, id).0) == Ids(items) - Ids([gone])
  {
    var n := items[0];
    var gone := FindItemIn(items, id, parent).value.item;
    var r := DeleteItemFromChildren(items, id).0;
    assert [gone][1..] == [];
    assert Ids([gone]) == {gone.id} + Ids(Kids(gone));
    if n.id == id {
      assert r == items[1..];
    } else {
      var below := DeleteItemFromChildren(Kids(n), id);
      DeleteStep(items, id);
      if id in Ids(Kids(n)) {
        DeleteRemovesSubtree(Kids(n), id, Some(n));
        FoundSubtreeIds(Kids(n), id, Some(n));
        assert Kids(r[0]) == below.0 && r[0].id == n.id && r[1..] == items[1..];
      } else {
        DeleteRemovesSubtree(items[1..], id, parent);
        FoundSubtreeIds(items[1..], id, parent);
        assert r[0] == n && r[1..] == DeleteItemFromChildren(items[1..], id).0;
      }
    }
  }

  /** A removal keeps identifiers unique. */
  lemma {:induction false} DeleteKeepsUnique(items: seq<Node>, id: Id)
    requires UniqueIds(items)
    decreases ForestSize(items)
    ensures UniqueIds(DeleteItemFromChildren(items, id).0)
  {
    if items != [] {
      var n := items[0];
      var r := DeleteItemFromChildren(items, id).0;
      if n.id == id {
        assert r == items[1..];
      } else {
        var below := DeleteItemFromChildren(Kids(n), id);
        DeleteStep(items, id);
        if id in Ids(Kids(n)) {
          DeleteKeepsUnique(Kids(n), id);
          DeleteShrinksIds(Kids(n), id);
          assert Kids(r[0]) == below.0 && r[0].id == n.id && r[1..] == items[1..];
        } else {
          DeleteKeepsUnique(items[1..], id);
          DeleteShrinksIds(items[1..], id);
          assert r[0] == n && r[1..] == DeleteItemFromChildren(items[1..], id).0;
        }
      }
    }
  }

  /** The path of a removal below the first root extends the path found in its children by index 0. */
  lemma DeletePathBelow(items: seq<Node>, id: Id, sub: seq<nat>)
    requires items != [] && items[0].id != id && id in Ids(Kids(items[0]))
    requires EditedAt(Kids(items[0]), DeleteItemFromChildren(Kids(items[0]), id).0, sub, id, Remove)
    ensures EditedAt(items, DeleteItemFromChildren(items, id).0, [0] + sub, id, Remove)
  {
    var n, below := items[0], DeleteItemFromChildren(Kids(items[0]), id).0;
    DeleteStep(items, id);
    assert Rewrap(below) == Rewrapped(Remove, below);
    ConsIsUpdate(items, n.(children := Rewrap(below)));
    DescendEdit(items, below, DeleteItemFromChildren(items, id).0, sub, id, Remove);
  }

  /** The path of a removal past the first root is the path found in the later roots, shifted by one. */
  lemma DeletePathPast(items: seq<Node>, id: Id, sub: seq<nat>)
    requires items != [] && items[0].id != id && id !in Ids(Kids(items[0]))
    requires EditedAt(items[1..], DeleteItemFromChildren(items[1..], id).0, sub, id, Remove)
    ensures EditedAt(items, DeleteItemFromChildren(items, id).0, [sub[0] + 1] + sub[1..], id, Remove)
  {
    DeleteStep(items, id);
    ShiftEdit(items[0], items[1..], DeleteItemFromChildren(items[1..], id).0, sub, id, Remove);
    HeadTail(items);
  }

  /** A removal is one edit at one path; an emptied parent list becomes `Nil`. */
  lemma {:induction false} DeleteEditsOnePath(items: seq<Node>, id: Id) returns (path: seq<nat>)
    requires id in Ids(items)
    decreases ForestSize(items)
    ensures EditedAt(items, DeleteItemFromChildren(items, id).0, path, id, Remove)
  {
    if items[0].id == id {
      RootEdit(items, DeleteItemFromChildren(items, id).0, 0, id, Remove);
      path := [0];
    } else if id in Ids(Kids(items[0])) {
      var sub := DeleteEditsOnePath(Kids(items[0]), id);
      DeletePathBelow(items, id, sub);
      path := [0] + sub;
    } else {
      var sub := DeleteEditsOnePath(items[1..], id);
      DeletePathPast(items, id, sub);
      path := [sub[0] + 1] + sub[1..];
    }
  }

  /** A removal never leaves an empty child list behind. */
  lemma {:induction false} DeleteKeepsNoEmptyLists(items: seq<Node>, id: Id)
    requires NoEmptyLists(items)
    decreases ForestSize(items)
    ensures NoEmptyLists(DeleteItemFromChildren(items, id).0)
  {
    if items != [] {
      var n := items[0];
      var r := DeleteItemFromChildren(items, id).0;
      if n.id != id {
        var below := DeleteItemFromChildren(Kids(n), id);
        DeleteKeepsNoEmptyLists(Kids(n), id);
        DeleteKeepsNoEmptyLists(items[1..], id);
        DeleteStep(items, id);
        if id in Ids(Kids(n)) {
          var n' := n.(children := Rewrap(below.0));
          assert Kids(n') == below.0;
          assert r[0] == n' && r[1..] == items[1..];
        } else {
          assert r[0] == n && r[1..] == DeleteItemFromChildren(items[1..], id).0;
        }
      }
    }
  }

  /**
   * With unique identifiers, after `DeleteItem` the id can no longer be
   * found, exactly the removed subtree's identifiers are gone, the rest stay
   * unique, and no empty child list appears.
   */
  lemma DeleteItemRemoves(s: Store, id: Id)
    requires UniqueIds(s.rootItems)
    ensures var r := DeleteItem(s, id);
      && FindItem(r, id).None?
      && UniqueIds(r.rootItems)
      && (id in Ids(s.rootItems) ==> Ids(r.rootItems) == Ids(s.rootItems) - Ids([FindItem(s, id).value.item]))
      && (NoEmptyLists(s.rootItems) ==> NoEmptyLists(r.rootItems))
  {
    DeletedRootsAgree(s.rootItems, id);
    if NoEmptyLists(s.rootItems) {
      DeleteKeepsNoEmptyLists(s.rootItems, id);
    }
    if id in Ids(s.rootItems) {
      var gone := FindItem(s, id).value.item;
      DeleteRemovesSubtree(s.rootItems, id, None);
      DeleteKeepsUnique(s.rootItems, id);
      assert [gone][1..] == [];
      assert id in Ids([gone]);
    }
  }

  /** `DeleteItem` removes one subtree at one path; every other node and sibling order stays. */
  lemma DeleteItemEditsOnePath(s: Store, id: Id) returns (path: seq<nat>)
    requires id in Ids(s.rootItems)
    ensures EditedAt(s.rootItems, DeleteItem(s, id).rootItems, path, id, Remove)
  {
    var roots, r := s.rootItems, DeleteItem(s, id).rootItems;
    var at := IndexOf(roots, id);
    if at.Some? {
      assert r == roots[..at.value] + roots[at.value + 1..];
      RootEdit(roots, r, at.value, id, Remove);
      path := [at.value];
    } else {
      path := DeleteEditsOnePath(roots, id);
      assert r == DeleteItemFromChildren(roots, id).0;
    }
  }

  // ----------------------------------------------------------------- add

  /** The identifiers of a concatenation of two forests with disjoint, unique identifiers are unique. */
  lemma {:induction false} UniqueAppend(a: seq<Node>, b: seq<Node>)
    requires UniqueIds(a) && UniqueIds(b) && Ids(a) !! Ids(b)
    ensures UniqueIds(a + b)
    decreases |a|
  {
    if a == [] {
      assert a + b == b;
    } else {
      assert (a + b)[0] == a[0] && (a + b)[1..] == a[1..] + b;
      IdsAppend(a[1..], b);
      UniqueAppend(a[1..], b);
    }
  }

  /** A search that cannot match in `a` continues into `b` with the same parent. */
  lemma {:induction false} FindSkipsPrefix(a: seq<Node>, b: seq<Node>, id: Id, parent: Option<Node>)
    requires id !in Ids(a)
    ensures FindItemIn(a + b, id, parent) == FindItemIn(b, id, parent)
    decreases |a|
  {
    if a == [] {
      assert a + b == b;
    } else {
      assert (a + b)[0] == a[0] && (a + b)[1..] == a[1..] + b;
      FindSkipsPrefix(a[1..], b, id, parent);
    }
  }

  /** The path of an insertion below the first root extends the path found in its children by index 0. */
  lemma AddPathBelow(items: seq<Node>, x: Node, parentId: Id, sub: seq<nat>)
    requires items != [] && items[0].id != parentId && parentId in Ids(Kids(items[0]))
    requires EditedAt(Kids(items[0]), AddItemToParent(Kids(items[0]), x, parentId).0, sub, parentId, Append(x))
    ensures EditedAt(items, AddItemToParent(items, x, parentId).0, [0] + sub, parentId, Append(x))
  {
    var n, below := items[0], AddItemToParent(Kids(items[0]), x, parentId).0;
    AddStep(items, x, parentId);
    assert List(below) == Rewrapped(Append(x), below);
    ConsIsUpdate(items, n.(children := List(below)));
    DescendEdit(items, below, AddItemToParent(items, x, parentId).0, sub, parentId, Append(x));
  }

  /** The path of an insertion past the first root is the path found in the later roots, shifted by one. */
  lemma AddPathPast(items: seq<Node>, x: Node, parentId: Id, sub: seq<nat>)
    requires items != [] && items[0].id != parentId && parentId !in Ids(Kids(items[0]))
    requires EditedAt(items[1..], AddItemToParent(items[1..], x, parentId).0, sub, parentId, Append(x))
    ensures EditedAt(items, AddItemToParent(items, x, parentId).0, [sub[0] + 1] + sub[1..], parentId, Append(x))
  {
    AddStep(items, x, parentId);
    ShiftEdit(items[0], items[1..], AddItemToParent(items[1..], x, parentId).0, sub, parentId, Append(x));
    HeadTail(items);
  }

  /** An insertion is one edit at one path: the parent gains `x` as its last child. */
  lemma {:induction false} AddEditsOnePath(items: seq<Node>, x: Node, parentId: Id) returns (path: seq<nat>)
    requires parentId in Ids(items)
    decreases ForestSize(items)
    ensures EditedAt(items, AddItemToParent(items, x, parentId).0, path, parentId, Append(x))
  {
    if items[0].id == parentId {
      RootEdit(items, AddItemToParent(items, x, parentId).0, 0, parentId, Append(x));
      path := [0];
    } else if parentId in Ids(Kids(items[0])) {
      var sub := AddEditsOnePath(Kids(items[0]), x, parentId);
      AddPathBelow(items, x, parentId, sub);
      path := [0] + sub;
    } else {
      var sub := AddEditsOnePath(items[1..], x, parentId);
      AddPathPast(items, x, parentId, sub);
      path := [sub[0] + 1] + sub[1..];
    }
  }

  /** The node a search finds does not depend on the parent the roots hang below. */
  lemma {:induction false} FindIgnoresParent(items: seq<Node>, id: Id, p: Option<Node>, q: Option<Node>)
    decreases ForestSize(items)
    ensures FindItemIn(items, id, p).Some? ==> FindItemIn(items, id, p).value.item == FindItemIn(items, id, q).value.item
  {
    if items != [] && items[0].id != id {
      if FindItemIn(Kids(items[0]), id, Some(items[0])).None? {
        FindIgnoresParent(items[1..], id, p, q);
      }
    }
  }

  /**
   * After an insertion of `x` with a fresh id below an existing parent, the
   * search for the new id finds `x`, whose parent carries `parentId` and has
   * the old children followed by `x`.
   */
  lemma {:induction false} AddThenFind(items: seq<Node>, x: Node, parentId: Id, parent: Option<Node>)
    requires parentId in Ids(items) && x.id !in Ids(items)
    decreases ForestSize(items)
    ensures var f := FindItemIn(AddItemToParent(items, x, parentId).0, x.id, parent);
      && f.Some? && f.value.item == x && f.value.parent.Some?
      && f.value.parent.value.id == parentId
      && Kids(f.value.parent.value) == Kids(FindItemIn(items, parentId, parent).value.item) + [x]
  {
    var n := items[0];
    var r := AddItemToParent(items, x, parentId).0;
    if n.id == parentId {
      var n' := n.(children := List(Kids(n) + [x]));
      assert r[0] == n';
      assert FindItemIn(items, parentId, parent).value.item == n;
      FindSkipsPrefix(Kids(n), [x], x.id, Some(n'));
      assert FindItemIn(Kids(n'), x.id, Some(n')) == Some(Located(x, Some(n')));
    } else {
      var below := AddItemToParent(Kids(n), x, parentId);
      AddStep(items, x, parentId);
      if parentId in Ids(Kids(n)) {
        var n' := n.(children := List(below.0));
        AddThenFind(Kids(n), x, parentId, Some(n'));
        FindIgnoresParent(Kids(n), parentId, Some(n'), Some(n));
        assert r[0] == n';
        assert FindItemIn(items, parentId, parent) == FindItemIn(Kids(n), parentId, Some(n));
        assert FindItemIn(r, x.id, parent) == FindItemIn(below.0, x.id, Some(n'));
      } else {
        var rest := AddItemToParent(items[1..], x, parentId).0;
        AddThenFind(items[1..], x, parentId, parent);
        AddIds(Kids(n), x, parentId);
        assert r[0] == n && r[1..] == rest;
        assert FindItemIn(items, parentId, parent) == FindItemIn(items[1..], parentId, parent);
        assert FindItemIn(r, x.id, parent) == FindItemIn(rest, x.id, parent);
      }
    }
  }

  /**
   * An insertion brings in exactly the identifiers of `x` when the parent
   * exists, and none otherwise.
   */
  lemma {:induction false} AddIds(items: seq<Node>, x: Node, parentId: Id)
    decreases ForestSize(items)
    ensures var r := AddItemToParent(items, x, parentId);
      Ids(r.0) == if r.1 then Ids(items) + Ids([x]) else Ids(items)
  {
    if items != [] {
      var n := items[0];
      var r := AddItemToParent(items, x, parentId).0;
      if n.id == parentId {
        IdsAppend(Kids(n), [x]);
        assert r[0] == n.(children := List(Kids(n) + [x])) && r[1..] == items[1..];
      } else {
        var below := AddItemToParent(Kids(n), x, parentId);
        AddStep(items, x, parentId);
        if parentId in Ids(Kids(n)) {
          AddIds(Kids(n), x, parentId);
          assert r[0] == n.(children := List(below.0)) && r[1..] == items[1..];
        } else {
          AddIds(items[1..], x, parentId);
          assert r[0] == n && r[1..] == AddItemToParent(items[1..], x, parentId).0;
        }
      }
    }
  }

  /** Adding a subtree with fresh, unique identifiers keeps the forest's identifiers unique. */
  lemma {:induction false} AddKeepsUnique(items: seq<Node>, x: Node, parentId: Id)
    requires UniqueIds(items) && UniqueIds([x]) && Ids([x]) !! Ids(items)
    decreases ForestSize(items)
    ensures UniqueIds(AddItemToParent(items, x, parentId).0)
  {
    if items != [] {
      var n := items[0];
      var r := AddItemToParent(items, x, parentId).0;
      if n.id == parentId {
        UniqueAppend(Kids(n), [x]);
        IdsAppend(Kids(n), [x]);
        assert r[0] == n.(children := List(Kids(n) + [x])) && r[1..] == items[1..];
      } else {
        var below := AddItemToParent(Kids(n), x, parentId);
        AddStep(items, x, parentId);
        if parentId in Ids(Kids(n)) {
          AddKeepsUnique(Kids(n), x, parentId);
          AddIds(Kids(n), x, parentId);
          assert r[0] == n.(children := List(below.0)) && r[1..] == items[1..];
        } else {
          AddKeepsUnique(items[1..], x, parentId);
          AddIds(items[1..], x, parentId);
          assert r[0] == n && r[1..] == AddItemToParent(items[1..], x, parentId).0;
        }
      }
    }
  }

  /**
   * `AddItem` with fresh, unique identifiers keeps identifiers unique and
   * places `x`: as the last root with no parent, or under the node
   * `parentId` when that node exists.
   */
  lemma AddItemPlaces(s: Store, x: Node, parentId: Option<Id>)
    requires UniqueIds(s.rootItems) && UniqueIds([x]) && Ids([x]) !! Ids(s.rootItems)
    ensures var r := AddItem(s, x, parentId);
      && UniqueIds(r.rootItems)
      && (parentId.None? ==> FindItem(r, x.id) == Some(Located(x, None)))
      && (parentId.Some? && parentId.value in Ids(s.rootItems) ==>
            && FindItem(r, x.id).Some?
            && FindItem(r, x.id).value.item == x
            && FindItem(r, x.id).value.parent.Some?
            && FindItem(r, x.id).value.parent.value.id == parentId.value
            && Ids(r.rootItems) == Ids(s.rootItems) + Ids([x]))
  {
    assert [x][1..] == [];
    assert x.id in Ids([x]);
    match parentId {
      case None =>
        UniqueAppend(s.rootItems, [x]);
        FindSkipsPrefix(s.rootItems, [x], x.id, None);
      case Some(p) =>
        AddKeepsUnique(s.rootItems, x, p);
        if p in Ids(s.rootItems) {
          AddIds(s.rootItems, x, p);
          AddThenFind(s.rootItems, x, p, None);
        }
    }
  }

  /** `AddItem` under an existing parent appends at one path; every other node and sibling order stays. */
  lemma AddItemEditsOnePath(s: Store, x: Node, parentId: Id)
    requires parentId in Ids(s.rootItems)
    ensures exists path :: EditedAt(s.rootItems, AddItem(s, x, Some(parentId)).rootItems, path, parentId, Append(x))
  {
    var path := AddEditsOnePath(s.rootItems, x, parentId);
    assert AddItem(s, x, Some(parentId)).rootItems == AddItemToParent(s.rootItems, x, parentId).0;
  }
}

=== FILE: sidebar.dfy ===
/**
 * The pure helpers of the sidebar view: the case-insensitive search filter
 * over the forest, and the set of expanded identifiers the view keeps.
 * Lower-casing is a parameter `lower`; the filter only relies on it being a
 * function of the text.
 */
module Sidebar {
  import opened Wrappers
  import opened SourceItem
  import opened Forest
  import opened Sequences
  import opened SourceListService
  import ServiceProperties

  // -------------------------------------------------------------- search

  /** `needle` occurs as a contiguous run in `hay`; the empty needle occurs everywhere. */
  predicate Contains(hay: string, needle: string)
    decreases |hay|
  {
    needle <= hay || (hay != [] && Contains(hay[1..], needle))
  }

  /** The node's lower-cased title contains the lower-cased search text. */
  predicate Matches(n: Node, searchText: string, lower: string -> string)
  {
    Contains(lower(n.title), lower(searchText))
  }

  /**
   * Keeps, in order, the nodes whose title matches or below which something
   * matches. A node without a child list is kept as it is; a kept node with
   * a child list gets the filtered children (possibly none) and is shown
   * expanded.
   */
  function FilterItems(items: seq<Node>, searchText: string, lower: string -> string): (r: seq<Node>)
    decreases ForestSize(items)
    ensures |r| <= |items|
  {
    if items == [] then []
    else
      var n := items[0];
      var head := match n.children
        case Nil => if Matches(n, searchText, lower) then [n] else []
        case List(cs) =>
          var kept := FilterItems(cs, searchText, lower);
          if kept != [] || Matches(n, searchText, lower) then [n.(children := List(kept), isExpanded := true)] else [];
      head + FilterItems(items[1..], searchText, lower)
  }

  /** What the sidebar lists: the roots themselves for an empty search, the filtered forest otherwise. */
  function FilteredItems(rootItems: seq<Node>, searchText: string, lower: string -> string): (r: seq<Node>)
    ensures searchText == [] ==> r == rootItems
    ensures |r| <= |rootItems|
  {
    if searchText == [] then rootItems else FilterItems(rootItems, searchText, lower)
  }

  /** The identifiers of the roots, in order. */
  function RootIds(items: seq<Node>): (r: seq<Id>)
    ensures |r| == |items|
  {
    if items == [] then [] else [items[0].id] + RootIds(items[1..])
  }

  /** What the filter makes of one root it keeps: itself for a leaf, the expanded node over the filtered children for a group. */
  function Survivor(n: Node, searchText: string, lower: string -> string): Node
  {
    match n.children
    case Nil => n
    case List(cs) => n.(children := List(FilterItems(cs, searchText, lower)), isExpanded := true)
  }

  /** The subtree of `n` holds a node whose title matches. */
  ghost predicate SubtreeMatches(n: Node, searchText: string, lower: string -> string)
  {
    exists e :: e in Preorder([n], None) && Matches(e.item, searchText, lower)
  }

  /** The reference result of the filter: the survivors of the roots whose subtree matches, in their order. */
  ghost function KeptSurvivors(items: seq<Node>, searchText: string, lower: string -> string): seq<Node>
  {
    if items == [] then []
    else
      (if SubtreeMatches(items[0], searchText, lower) then [Survivor(items[0], searchText, lower)] else [])
      + KeptSurvivors(items[1..], searchText, lower)
  }

  // -------------------------------------------------------- expansion

  /** The view shows `n` expanded when its id was collected or the node itself says so. */
  function IsItemExpanded(expandedItemIds: set<Id>, n: Node): (r: bool)
    ensures n.isExpanded ==> r
    ensures !n.isExpanded ==> (r <==> n.id in expandedItemIds)
  {
    n.id in expandedItemIds || n.isExpanded
  }

  /**
   * The view's expansion toggle: `id` leaves or joins the view's own set, and
   * the service is asked to collapse or expand the node to match.
   */
  function ToggleViewExpansion(expandedItemIds: set<Id>, s: Store, id: Id): (r: (set<Id>, Store))
    ensures id in r.0 <==> id !in expandedItemIds
    ensures r.0 - {id} == expandedItemIds - {id}
  {
    if id in expandedItemIds then (expandedItemIds - {id}, CollapseItem(s, id))
    else (expandedItemIds + {id}, ExpandItem(s, id))
  }

  /** The identifiers of the expanded nodes, at any depth. */
  function CollectExpanded(items: seq<Node>): (r: set<Id>)
    decreases ForestSize(items)
    ensures r <= Ids(items)
  {
    if items == [] then {}
    else
      var n := items[0];
      (if n.isExpanded then {n.id} else {}) + CollectExpanded(Kids(n)) + CollectExpanded(items[1..])
  }

  // ------------------------------------------------------------ lemmas

  /** `Contains` is the substring relation. */
  lemma {:induction false} ContainsIsSubstring(hay: string, needle: string)
    decreases |hay|
    ensures Contains(hay, needle) <==> exists i, j :: 0 <= i <= j <= |hay| && hay[i..j] == needle
  {
    if needle <= hay {
      assert hay[0..|needle|] == needle;
    } else {
      if hay != [] {
        ContainsIsSubstring(hay[1..], needle);
        if exists i, j :: 0 <= i <= j <= |hay| && hay[i..j] == needle {
          var i, j :| 0 <= i <= j <= |hay| && hay[i..j] == needle;
          if i > 0 {
            assert hay[1..][i - 1..j - 1] == needle;
          }
        }
        if Contains(hay[1..], needle) {
          var i, j :| 0 <= i <= j <= |hay[1..]| && hay[1..][i..j] == needle;
          assert hay[i + 1..j + 1] == needle;
        }
      }
    }
  }

  /** The filter drops everything exactly when no node at any depth matches. */
  lemma {:induction false} FilterEmptyIff(items: seq<Node>, searchText: string, lower: string -> string, parent: Option<Node>)
    decreases ForestSize(items)
    ensures FilterItems(items, searchText, lower) == [] <==>
      forall e :: e in Preorder(items, parent) ==> !Matches(e.item, searchText, lower)
  {
    if items != [] {
      var n := items[0];
      FilterEmptyIff(Kids(n), searchText, lower, Some(n));
      FilterEmptyIff(items[1..], searchText, lower, parent);
      assert Located(n, parent) in Preorder(items, parent);
    }
  }

  /** The filter's decision for one root: it is kept, as its survivor, exactly when its subtree matches. */
  lemma FilterOneRoot(n: Node, searchText: string, lower: string -> string)
    ensures FilterItems([n], searchText, lower) ==
      if SubtreeMatches(n, searchText, lower) then [Survivor(n, searchText, lower)] else []
  {
    FilterEmptyIff(Kids(n), searchText, lower, Some(n));
    assert [n][1..] == [];
    assert Preorder([n], None) == [Located(n, None)] + Preorder(Kids(n), Some(n));
    assert Located(n, None) in Preorder([n], None);
  }

  /** The filter of a forest is the filter of its first root followed by the filter of the rest. */
  lemma FilterSplits(items: seq<Node>, searchText: string, lower: string -> string)
    requires items != []
    ensures FilterItems(items, searchText, lower) ==
      FilterItems([items[0]], searchText, lower) + FilterItems(items[1..], searchText, lower)
  {
    assert [items[0]][1..] == [];
  }

  /**
   * The filter keeps exactly the roots whose subtree holds a match, in their
   * order, each replaced by its survivor: a leaf unchanged, a group expanded
   * over its own filtered children.
   */
  lemma {:induction false} FilterIsKeptSurvivors(items: seq<Node>, searchText: string, lower: string -> string)
    ensures FilterItems(items, searchText, lower) == KeptSurvivors(items, searchText, lower)
  {
    if items != [] {
      FilterSplits(items, searchText, lower);
      FilterOneRoot(items[0], searchText, lower);
      FilterIsKeptSurvivors(items[1..], searchText, lower);
    }
  }

  /** The roots the filter keeps appear in their original order. */
  lemma {:induction false} FilterKeepsOrder(items: seq<Node>, searchText: string, lower: string -> string)
    ensures IsSubseq(RootIds(FilterItems(items, searchText, lower)), RootIds(items))
  {
    if items != [] {
      var n := items[0];
      var rest := FilterItems(items[1..], searchText, lower);
      FilterKeepsOrder(items[1..], searchText, lower);
      FilterSplits(items, searchText, lower);
      FilterOneRoot(n, searchText, lower);
      if SubtreeMatches(n, searchText, lower) {
        var m := Survivor(n, searchText, lower);
        assert ([m] + rest)[1..] == rest;
        assert RootIds([m] + rest) == [n.id] + RootIds(rest);
      } else {
        assert [] + rest == rest;
        SkipHead(RootIds(rest), RootIds(items));
      }
    }
  }

  /** A subsequence of the tail is a subsequence of the whole. */
  lemma SkipHead(a: seq<Id>, b: seq<Id>)
    requires b != [] && IsSubseq(a, b[1..])
    ensures IsSubseq(a, b)
  {
  }

  /**
   * `m` is what the filter may make of the input root `n`: a leaf whose
   * title matches, unchanged, or a group with a match in its subtree, shown
   * expanded over its filtered children.
   */
  ghost predicate ShownFor(m: Node, n: Node, searchText: string, lower: string -> string)
  {
    && m.id == n.id && m.title == n.title
    && (n.children.Nil? ==> m == n && Matches(m, searchText, lower))
    && (n.children.List? ==>
          && m.isExpanded
          && SubtreeMatches(n, searchText, lower)
          && m.children == List(FilterItems(Kids(n), searchText, lower)))
  }

  /** Every root of the filtered forest is shown for some root of the input. */
  lemma {:induction false} FilterRootShape(items: seq<Node>, searchText: string, lower: string -> string)
    ensures forall m :: m in FilterItems(items, searchText, lower) ==>
      exists i :: 0 <= i < |items| && ShownFor(m, items[i], searchText, lower)
  {
    if items != [] {
      var n := items[0];
      FilterSplits(items, searchText, lower);
      FilterOneRoot(n, searchText, lower);
      FilterRootShape(items[1..], searchText, lower);
      var rest := FilterItems(items[1..], searchText, lower);
      forall m | m in FilterItems(items, searchText, lower)
        ensures exists i :: 0 <= i < |items| && ShownFor(m, items[i], searchText, lower)
      {
        if m in rest {
          var i :| 0 <= i < |items[1..]| && ShownFor(m, items[1..][i], searchText, lower);
          assert items[1..][i] == items[i + 1];
        } else {
          assert m == Survivor(n, searchText, lower);
          if n.children.Nil? {
            assert Preorder([n], None) == [Located(n, None)] by {
              assert [n][1..] == [];
            }
          }
          assert ShownFor(m, items[0], searchText, lower);
        }
      }
    }
  }

  /** Filtering an already filtered forest changes nothing. */
  lemma {:induction false} FilterIdempotent(items: seq<Node>, searchText: string, lower: string -> string)
    decreases ForestSize(items)
    ensures var once := FilterItems(items, searchText, lower);
      FilterItems(once, searchText, lower) == once
  {
    if items != [] {
      var n := items[0];
      var rest := FilterItems(items[1..], searchText, lower);
      FilterIdempotent(items[1..], searchText, lower);
      FilterSplits(items, searchText, lower);
      var head := FilterItems([n], searchText, lower);
      FilterAppend(head, rest, searchText, lower);
      if head != [] {
        var m := head[0];
        assert head == [m];
        FilterIdempotent(Kids(n), searchText, lower);
        assert FilterItems([m], searchText, lower) == [m] by {
          assert [m][1..] == [];
          if n.children.List? {
            assert m.children.nodes == FilterItems(Kids(n), searchText, lower);
          }
        }
      }
    }
  }

  /** The filter of a concatenation is the concatenation of the filters. */
  lemma {:induction false} FilterAppend(a: seq<Node>, b: seq<Node>, searchText: string, lower: string -> string)
    ensures FilterItems(a + b, searchText, lower) == FilterItems(a, searchText, lower) + FilterItems(b, searchText, lower)
    decreases |a|
  {
    if a == [] {
      assert a + b == b;
    } else {
      assert (a + b)[0] == a[0] && (a + b)[1..] == a[1..] + b;
      FilterAppend(a[1..], b, searchText, lower);
      FilterSplits(a + b, searchText, lower);
      FilterSplits(a, searchText, lower);
    }
  }

  /** `CollectExpanded` gathers exactly the identifiers of the expanded nodes the pre-order walk lists. */
  lemma {:induction false} CollectIsPreorder(items: seq<Node>, parent: Option<Node>, id: Id)
    decreases ForestSize(items)
    ensures id in CollectExpanded(items) <==>
      exists e :: e in Preorder(items, parent) && e.item.isExpanded && e.item.id == id
  {
    if items != [] {
      var n := items[0];
      CollectIsPreorder(Kids(n), Some(n), id);
      CollectIsPreorder(items[1..], parent, id);
      assert Located(n, parent) in Preorder(items, parent);
    }
  }

  /**
   * With unique identifiers, after the view collects the expanded ids of the
   * forest, it shows a node expanded exactly when the node itself is.
   */
  lemma ExpandedAgrees(rootItems: seq<Node>, e: Located)
    requires UniqueIds(rootItems) && e in Preorder(rootItems, None)
    ensures IsItemExpanded(CollectExpanded(rootItems), e.item) <==> e.item.isExpanded
  {
    CollectIsPreorder(rootItems, None, e.item.id);
    if e.item.id in CollectExpanded(rootItems) {
      var e2 :| e2 in Preorder(rootItems, None) && e2.item.isExpanded && e2.item.id == e.item.id;
      UniqueIdsDetermineEntry(rootItems, None, e, e2);
    }
  }

  /**
   * After the view toggles a group that is in the forest, the view's set and
   * the node's own flag agree on it, so the view shows it expanded exactly
   * when the service has it expanded.
   */
  lemma ToggleViewAgrees(expandedItemIds: set<Id>, s: Store, id: Id)
    requires UniqueIds(s.rootItems) && id in Ids(s.rootItems)
    requires HasChildren(FindItem(s, id).value.item)
    ensures var (ids, r) := ToggleViewExpansion(expandedItemIds, s, id);
      && FindItem(r, id).Some?
      && FindItem(r, id).value.item.isExpanded == (id in ids)
      && (IsItemExpanded(ids, FindItem(r, id).value.item) <==> id in ids)
  {
    if id in expandedItemIds {
      ServiceProperties.CollapseClears(s, id);
    } else {
      ServiceProperties.ExpandSets(s, id);
    }
  }

  /**
   * When the view's set agrees with the node's own flag, the view's toggle
   * is the service's toggle, and afterwards the two agree again.
   */
  lemma ViewToggleIsToggle(expandedItemIds: set<Id>, s: Store, id: Id)
    requires UniqueIds(s.rootItems) && id in Ids(s.rootItems)
    requires HasChildren(FindItem(s, id).value.item)
    requires (id in expandedItemIds) == FindItem(s, id).value.item.isExpanded
    ensures var (ids1, s1) := ToggleViewExpansion(expandedItemIds, s, id);
      && s1 == ToggleExpansion(s, id)
      && UniqueIds(s1.rootItems) && id in Ids(s1.rootItems)
      && HasChildren(FindItem(s1, id).value.item)
      && (id in ids1) == FindItem(s1, id).value.item.isExpanded
  {
    ServiceProperties.ToggleFlips(s, id);
  }

  /**
   * When the view's set agrees with the node's own flag (as it does right
   * after collecting, by `ExpandedAgrees`), toggling the same group twice,
   * through the store the first toggle leaves, gives back both the view's set
   * and the forest.
   */
  lemma ToggleViewTwice(expandedItemIds: set<Id>, s: Store, id: Id)
    requires UniqueIds(s.rootItems) && id in Ids(s.rootItems)
    requires HasChildren(FindItem(s, id).value.item)
    requires (id in expandedItemIds) == FindItem(s, id).value.item.isExpanded
    ensures var (ids1, s1) := ToggleViewExpansion(expandedItemIds, s, id);
      var (ids2, s2) := ToggleViewExpansion(ids1, s1, id);
      ids2 == expandedItemIds && s2.rootItems == s.rootItems
  {
    var (ids1, s1) := ToggleViewExpansion(expandedItemIds, s, id);
    ViewToggleIsToggle(expandedItemIds, s, id);
    ViewToggleIsToggle(ids1, s1, id);
    ServiceProperties.ToggleTwiceRestores(s, id);
  }
}

=== FILE: source_item.dfy ===
/**
 * The sidebar's node value: one entry of the hierarchical source list,
 * either a plain item or a group with an ordered list of children.
 */
module SourceItem {
  import opened Wrappers

  /** Stable item identifier (a UUID in the Swift source); only equality is used. */
  type Id = nat

  /**
   * The optional child array of a node. `Nil` and `List([])` are different
   * values: the first is a leaf, the second a group that happens to be empty.
   * (A dedicated datatype rather than `Option<seq<Node>>` so that recursion
   * through the children is well founded.)
   */
  datatype ChildList = Nil | List(nodes: seq<Node>)

  /** A source-list entry. The untyped metadata dictionary is not modelled. */
  datatype Node = Node(
    id: Id,
    title: string,
    icon: Option<string>,
    badge: Option<string>,
    children: ChildList,
    isEditable: bool,
    isSelectable: bool,
    isExpanded: bool)

  /** The children of `n`, or the empty sequence when the list is absent. */
  function Kids(n: Node): seq<Node>
  {
    if n.children.List? then n.children.nodes else []
  }

  /** True iff the child list is present and non-empty. */
  predicate HasChildren(n: Node)
  {
    match n.children
    case Nil => false
    case List(cs) => cs != []
  }

  /** A group is, by definition, a node that has children. */
  predicate IsGroup(n: Node)
  {
    HasChildren(n)
  }

  /** Item equality compares identifiers only. */
  predicate SameItem(a: Node, b: Node)
  {
    a.id == b.id
  }

  /** The memberwise initializer with its default arguments. */
  function Init(
    id: Id,
    title: string,
    icon: Option<string> := None,
    badge: Option<string> := None,
    children: ChildList := Nil,
    isEditable: bool := false,
    isSelectable: bool := true,
    isExpanded: bool := false): (r: Node)
    ensures r.id == id && r.title == title && r.icon == icon && r.badge == badge
    ensures r.children == children && r.isExpanded == isExpanded
    ensures r.isEditable == isEditable && r.isSelectable == isSelectable
  {
    Node(id, title, icon, badge, children, isEditable, isSelectable, isExpanded)
  }

  /** A group node: never selectable, never editable. */
  function Group(
    id: Id,
    title: string,
    children: seq<Node>,
    icon: Option<string> := None,
    isExpanded: bool := false): (r: Node)
    ensures r.id == id && r.title == title && r.icon == icon && r.badge == None
    ensures r.children == List(children) && r.isExpanded == isExpanded
    ensures !r.isSelectable && !r.isEditable
    ensures HasChildren(r) <==> children != []
  {
    Init(id, title, icon := icon, children := List(children), isSelectable := false, isExpanded := isExpanded)
  }

  /** A plain item: no child list, selectable, collapsed. */
  function Item(
    id: Id,
    title: string,
    icon: Option<string> := None,
    badge: Option<string> := None,
    isEditable: bool := false): (r: Node)
    ensures r.id == id && r.title == title && r.icon == icon && r.badge == badge
    ensures r.children == Nil && !HasChildren(r) && !IsGroup(r)
    ensures r.isSelectable && r.isEditable == isEditable && !r.isExpanded
  {
    Init(id, title, icon := icon, badge := badge, isEditable := isEditable)
  }

  /** `hasChildren` holds exactly when the child list is present and non-empty, and `isGroup` agrees with it. */
  lemma HasChildrenMeaning(n: Node)
    ensures HasChildren(n) <==> n.children.List? && |n.children.nodes| > 0
    ensures HasChildren(n) <==> |Kids(n)| > 0
    ensures IsGroup(n) == HasChildren(n)
  {
  }

  /** Two items with the same id are equal whatever their other fields. */
  lemma EqualityIsById(a: Node, b: Node)
    ensures SameItem(a, b) <==> a.id == b.id
    ensures SameItem(a, a)
    ensures SameItem(a, b) ==> SameItem(b, a)
  {
  }

  /** An item made with every default has no children and is a selectable, read-only, collapsed leaf. */
  lemma DefaultInit(id: Id, title: string)
    ensures var n := Init(id, title);
      && n.children == Nil && !HasChildren(n) && !IsGroup(n)
      && !n.isEditable && n.isSelectable && !n.isExpanded
      && n.icon == None && n.badge == None
  {
  }
}

=== FILE: source_list_service.dfy ===
/**
 * The source-list service: owns the forest of root items and edits it by
 * identifier. Every public operation returns the new service state; the
 * three notification streams (forest changed, item renamed, item deleted)
 * are modelled as one append-only event log.
 */
module SourceListService {
  import opened Wrappers
  import opened SourceItem
  import opened Forest

  /** One notification sent by the service, in emission order. */
  datatype Event =
    | ItemsChanged(snapshot: seq<Node>)
    | ItemRenamed(id: Id, newTitle: string)
    | ItemDeleted(id: Id)

  /** The service state: the root items and every event sent so far. */
  datatype Store = Store(rootItems: seq<Node>, events: seq<Event>)

  /** A fresh service over `rootItems` (empty by default) that has sent nothing. */
  function NewStore(rootItems: seq<Node> := []): (r: Store)
    ensures r.rootItems == rootItems && r.events == []
  {
    Store(rootItems, [])
  }

  // ---------------------------------------------------------------- find

  /**
   * Depth-first pre-order search of `items` whose roots hang below `parent`:
   * a node is compared before its children, its children before its later
   * siblings. Yields the node with its direct parent.
   */
  function FindItemIn(items: seq<Node>, id: Id, parent: Option<Node>): (r: Option<Located>)
    decreases ForestSize(items)
    ensures r.None? <==> id !in Ids(items)
    ensures r.Some? ==> r.value.item.id == id
  {
    if items == [] then None
    else if items[0].id == id then Some(Located(items[0], parent))
    else match FindItemIn(Kids(items[0]), id, Some(items[0]))
      case Some(found) => Some(found)
      case None => FindItemIn(items[1..], id, parent)
  }

  /** Looks `id` up among the roots and all their descendants; a root is reported with no parent. */
  function FindItem(s: Store, id: Id): (r: Option<Located>)
    ensures r.None? <==> id !in Ids(s.rootItems)
    ensures r.Some? ==> r.value.item.id == id
  {
    FindItemIn(s.rootItems, id, None)
  }

  /** Index of the first root carrying `id` (Swift's `firstIndex(where:)`). */
  function IndexOf(items: seq<Node>, id: Id): (r: Option<nat>)
    ensures r.Some? ==> r.value < |items| && items[r.value].id == id
    ensures r.Some? ==> forall j :: 0 <= j < r.value ==> items[j].id != id
    ensures r.None? ==> forall j :: 0 <= j < |items| ==> items[j].id != id
  {
    if items == [] then None
    else if items[0].id == id then Some(0)
    else match IndexOf(items[1..], id)
      case Some(i) => Some(i + 1)
      case None => None
  }

  // -------------------------------------------------------------- update

  /**
   * Replaces, in pre-order, the first node whose id is `x.id` by `x` (its
   * children included); the flag says whether a node was replaced.
   */
  function UpdateItemInChildren(items: seq<Node>, x: Node): (r: (seq<Node>, bool))
    decreases ForestSize(items)
    ensures r.1 <==> x.id in Ids(items)
    ensures !r.1 ==> r.0 == items
    ensures |r.0| == |items| && forall i :: 0 <= i < |items| ==> r.0[i].id == items[i].id
  {
    if items == [] then (items, false)
    else
      var n := items[0];
      if n.id == x.id then ([x] + items[1..], true)
      else
        var below := UpdateItemInChildren(Kids(n), x);
        if n.children.List? && below.1 then ([n.(children := List(below.0))] + items[1..], true)
        else
          var rest := UpdateItemInChildren(items[1..], x);
          ([n] + rest.0, rest.1)
  }

  /** The forest after `UpdateItem`: a matching root wins, otherwise the pre-order search below the roots. */
  function UpdatedRoots(roots: seq<Node>, x: Node): (r: seq<Node>)
    ensures x.id !in Ids(roots) ==> r == roots
    ensures |r| == |roots| && forall i :: 0 <= i < |roots| ==> r[i].id == roots[i].id
  {
    match IndexOf(roots, x.id)
    case Some(i) => RootIdInIds(roots, i); roots[i := x]
    case None => UpdateItemInChildren(roots, x).0
  }

  /**
   * Whole-value replacement of the node whose id is `x.id`. The change
   * notification is sent even when no node carries that id.
   */
  function UpdateItem(s: Store, x: Node): (r: Store)
    ensures r.events == s.events + [ItemsChanged(r.rootItems)]
    ensures x.id !in Ids(s.rootItems) ==> r.rootItems == s.rootItems
    ensures |r.rootItems| == |s.rootItems|
  {
    var roots := UpdatedRoots(s.rootItems, x);
    Store(roots, s.events + [ItemsChanged(roots)])
  }

  /** Sets the title of the node `id`; nothing happens, and nothing is sent, when it is absent. */
  function RenameItem(s: Store, id: Id, newTitle: string): (r: Store)
    ensures id !in Ids(s.rootItems) ==> r == s
    ensures id in Ids(s.rootItems) ==> r.events == s.events + [ItemsChanged(r.rootItems), ItemRenamed(id, newTitle)]
  {
    match FindItem(s, id)
    case None => s
    case Some(found) =>
      var u := UpdateItem(s, found.item.(title := newTitle));
      Store(u.rootItems, u.events + [ItemRenamed(id, newTitle)])
  }

  // -------------------------------------------------------------- delete

  /** `nil` for an emptied child list, so that "has children" and "list present" stay in step. */
  function Rewrap(nodes: seq<Node>): (r: ChildList)
    ensures r.List? <==> nodes != []
    ensures r.List? ==> r.nodes == nodes
  {
    if nodes == [] then Nil else List(nodes)
  }

  /**
   * Removes, in pre-order, the first node whose id is `id` together with its
   * subtree; a parent left without children gets `Nil`.
   */
  function DeleteItemFromChildren(items: seq<Node>, id: Id): (r: (seq<Node>, bool))
    decreases ForestSize(items)
    ensures r.1 <==> id in Ids(items)
    ensures !r.1 ==> r.0 == items
  {
    if items == [] then (items, false)
    else
      var n := items[0];
      if n.id == id then (items[1..], true)
      else
        var below := DeleteItemFromChildren(Kids(n), id);
        if n.children.List? && below.1 then ([n.(children := Rewrap(below.0))] + items[1..], true)
        else
          var rest := DeleteItemFromChildren(items[1..], id);
          ([n] + rest.0, rest.1)
  }

  /** The forest after `DeleteItem`: a matching root is dropped, otherwise the pre-order search below. */
  function DeletedRoots(roots: seq<Node>, id: Id): (r: seq<Node>)
    ensures id !in Ids(roots) ==> r == roots
  {
    match IndexOf(roots, id)
    case Some(i) => RootIdInIds(roots, i); roots[..i] + roots[i + 1..]
    case None => DeleteItemFromChildren(roots, id).0
  }

  /**
   * Removes the node `id` and its subtree. Both the change and the deletion
   * notifications are sent, even when no node carries `id`.
   */
  function DeleteItem(s: Store, id: Id): (r: Store)
    ensures r.events == s.events + [ItemsChanged(r.rootItems), ItemDeleted(id)]
    ensures id !in Ids(s.rootItems) ==> r.rootItems == s.rootItems
    ensures forall i ::
      (0 <= i < |s.rootItems| && s.rootItems[i].id == id && forall j :: 0 <= j < i ==> s.rootItems[j].id != id)
      ==> r.rootItems == s.rootItems[..i] + s.rootItems[i + 1..]
  {
    var roots := DeletedRoots(s.rootItems, id);
    Store(roots, s.events + [ItemsChanged(roots), ItemDeleted(id)])
  }

  // ----------------------------------------------------------- expansion

  /** Flips `isExpanded` of the node `id` when it has children; otherwise nothing happens. */
  function ToggleExpansion(s: Store, id: Id): (r: Store)
    ensures (id !in Ids(s.rootItems) || !HasChildren(FindItem(s, id).value.item)) ==> r == s
    ensures id in Ids(s.rootItems) && HasChildren(FindItem(s, id).value.item) ==>
      r.events == s.events + [ItemsChanged(r.rootItems)]
  {
    match FindItem(s, id)
    case None => s
    case Some(found) =>
      if !HasChildren(found.item) then s
      else UpdateItem(s, found.item.(isExpanded := !found.item.isExpanded))
  }

  /** Expands the node `id`; nothing happens when it is absent, has no children or is already expanded. */
  function ExpandItem(s: Store, id: Id): (r: Store)
    ensures (id !in Ids(s.rootItems) || !HasChildren(FindItem(s, id).value.item)
             || FindItem(s, id).value.item.isExpanded) ==> r == s
    ensures id in Ids(s.rootItems) && HasChildren(FindItem(s, id).value.item)
            && !FindItem(s, id).value.item.isExpanded ==>
      r.events == s.events + [ItemsChanged(r.rootItems)]
  {
    match FindItem(s, id)
    case None => s
    case Some(found) =>
      if !HasChildren(found.item) || found.item.isExpanded then s
      else UpdateItem(s, found.item.(isExpanded := true))
  }

  /** Collapses the node `id`; nothing happens when it is absent, has no children or is already collapsed. */
  function CollapseItem(s: Store, id: Id): (r: Store)
    ensures (id !in Ids(s.rootItems) || !HasChildren(FindItem(s, id).value.item)
             || !FindItem(s, id).value.item.isExpanded) ==> r == s
    ensures id in Ids(s.rootItems) && HasChildren(FindItem(s, id).value.item)
            && FindItem(s, id).value.item.isExpanded ==>
      r.events == s.events + [ItemsChanged(r.rootItems)]
  {
    match FindItem(s, id)
    case None => s
    case Some(found) =>
      if !HasChildren(found.item) || !found.item.isExpanded then s
      else UpdateItem(s, found.item.(isExpanded := false))
  }

  // ----------------------------------------------------------------- add

  /**
   * Appends `x` to the children of the first node, in pre-order, whose id is
   * `parentId`, creating the child list when it was absent.
   */
  function AddItemToParent(items: seq<Node>, x: Node, parentId: Id): (r: (seq<Node>, bool))
    decreases ForestSize(items)
    ensures r.1 <==> parentId in Ids(items)
    ensures !r.1 ==> r.0 == items
  {
    if items == [] then (items, false)
    else
      var n := items[0];
      if n.id == parentId then
        var n' := n.(children := List(Kids(n) + [x]));
        ([n'] + items[1..], true)
      else
        var below := AddItemToParent(Kids(n), x, parentId);
        if n.children.List? && below.1 then ([n.(children := List(below.0))] + items[1..], true)
        else
          var rest := AddItemToParent(items[1..], x, parentId);
          ([n] + rest.0, rest.1)
  }

  /**
   * Adds `x` as the last root, or as the last child of the node `parentId`.
   * An unknown parent leaves the forest as it was; the change notification
   * is sent in every case.
   */
  function AddItem(s: Store, x: Node, parentId: Option<Id> := None): (r: Store)
    ensures r.events == s.events + [ItemsChanged(r.rootItems)]
    ensures parentId.None? ==> r.rootItems == s.rootItems + [x]
    ensures parentId.Some? && parentId.value !in Ids(s.rootItems) ==> r.rootItems == s.rootItems
  {
    var roots := match parentId
      case None => s.rootItems + [x]
      case Some(p) => AddItemToParent(s.rootItems, x, p).0;
    Store(roots, s.events + [ItemsChanged(roots)])
  }

  // --------------------------------------------------- forest arithmetic

  /** The identifiers of a concatenation are the union of the parts' identifiers. */
  lemma {:induction false} IdsAppend(a: seq<Node>, b: seq<Node>)
    ensures Ids(a + b) == Ids(a) + Ids(b)
    decreases |a|
  {
    if a != [] {
      assert (a + b)[0] == a[0];
      assert (a + b)[1..] == a[1..] + b;
      IdsAppend(a[1..], b);
    } else {
      assert a + b == b;
    }
  }
}

=== FILE: wrappers.dfy ===
/** The Some/None datatype used for Swift optionals (`T?`). */
module Wrappers {

  datatype Option<+T> = None | Some(value: T)
}
